=== FILE: README.md ===
# Scramble-text and ASCII-background cores, modelled in Dafny

This project models the two small state machines behind the decorative
front end of the Esvelo website.

- **Text scramble** (`src/text-scramble.js`). Each watched heading starts as
  random glyphs. When it enters the viewport it is revealed: every character
  gets a transition window, opening at frame `2i` and lasting 10 to 19 frames.
  During its window a character flickers through random glyphs, then settles
  on the original text. When the heading leaves the viewport it is scrambled
  again at once. The hero heading's `<br>` is re-inserted whenever the text is
  written.
- **Interaction intensity** (`src/ascii-background.js`). Pointer, scroll and
  touch movement raise a target intensity. Each qualifying input adds a capped
  gain, and the target saturates at 1. Leaving the window, lifting the finger
  or a fired idle timer drops the target to 0. Each animation frame eases the
  displayed intensity toward the target: at rate 0.15 on the way up and 0.04 on
  the way down. Values below 0.001 snap to exactly 0, which is what the
  fragment shader's early exit tests.
- **Glyph table** (`src/ascii-background.js`, shader text). Brightness selects
  one of twelve 5x5 bit patterns through a chain of threshold tests. The
  `character` function lights a pixel of a cell when the pattern's bit for
  that pixel is set.

Modules:

- `JsString` (`js_string.dfy`): the JavaScript string built-ins the effect
  uses. These are `substring`, `indexOf`, `includes` and `split`.
- `TextScramble` (`text_scramble.dfy`): the transition schedule, frame
  rendering, `updateText`, the revealed/scrambled guard and the
  intersection dispatch.
- `Intensity` (`intensity.dfy`): the event handlers and the `animate`
  intensity step, over `real`.
- `Glyphs` (`glyphs.dfy`): the brightness bands and the 5x5 bit test.

Randomness is an oracle. Every `Math.random()` value is supplied as a
function from draw index to a real in [0, 1):

- `jitter(i)` gives entry `i`'s extra frames;
- `rolls(i)` gives entry `i`'s flicker test and glyph pick in one frame;
- `picks(i)` gives the glyph for position `i` of a scramble.

The source draws only for non-blank characters, one after the other. Indexing
the draws by position instead changes nothing observable, because the oracle
is arbitrary. The host's square root in the pointer handlers is an oracle
too: a `root` with `root >= 0` and `root * root` equal to the squared
distance. The DOM element is a `View`, either plain text or
`Markup(before, after)` around a `<br>`. Its `textContent` is `before + after`.
The timers, the frame callback and the intersection observer become explicit
calls: `Tick`, `DecayFired` and `OnVisibility`/`HandleIntersection`.

Whitespace is not always kept in place during a reveal. The comment in
`update` (src/text-scramble.js:75) speaks of randomising only non-space
characters. But the test looks at the *target* character only, and a position
past the end of the target has the target `''`. Such a position flickers
through random glyphs until its end frame, even when it showed a space, and
then disappears. The model follows the code, and `TextScramble.Show` states
this case.

A heading is *coherent* (`TextScramble.Coherent`) when it is in a state that
`reveal`, `scramble` and the frame callback keep it in. Hidden, it shows a
scramble of its text with no frame pending. Revealed, its schedule ends on its
text and carries only glyphs of `CHARS`, and once no frame is pending it shows
its text. A new heading is coherent, and every operation keeps it so.

## Model

| member | source | states |
|---|---|---|
| `JsString.Substring` | src/text-scramble.js:106-107 | `substring` clamps both bounds into the string, swaps them when they are out of order, and never fails: in-range bounds give the slice (either order), bounds covering the whole string give the string, both bounds past the end give the empty string, and the result is never longer than the string |
| `JsString.IndexOf` | src/text-scramble.js:104 | `indexOf` returns -1 exactly when the character is absent; otherwise it returns a position holding the character with no earlier occurrence |
| `JsString.Split` | src/text-scramble.js:111 | `split` returns at least one part, no part contains the separator, and joining the parts back with the separator gives the original markup; for a separator that cannot overlap itself, such as `<br>`, this determines the parts |
| `JsString.SplitsIffIncludes` | src/text-scramble.js:102-112 | `split` on `<br>` returns two or more parts if and only if the markup `includes` `<br>` |
| `JsString.SplitHead` | src/text-scramble.js:111-113 | when there are two or more parts, the first part is the markup before the first `<br>`, and it holds no `<br>` itself |
| `TextScramble.RandomChar` | src/text-scramble.js:126-128 | `randomChar` always returns a character of `CHARS` |
| `TextScramble.RandomCharCovers` | src/text-scramble.js:126-128 | every character of `CHARS` is returned for some random draw |
| `TextScramble.Jitter` | src/text-scramble.js:55 | `Math.floor(Math.random() * 10)` adds at most 9 extra frames |
| `TextScramble.AnimateTo` | src/text-scramble.js:45-57 | the queue has as many entries as the longer of the displayed and target texts; entry i has `from` = current[i] or empty past the end, `to` = target[i] or empty past the end, `start` = 2i, and start+10 <= end <= start+19; no glyph is drawn yet |
| `TextScramble.Show` | src/text-scramble.js:68-87 | one entry at one frame: at or after `end` it shows `to`; before `start` it shows `from`; inside the window it shows `to` when that is a space or line feed, and otherwise a non-empty glyph that comes from `CHARS` when the previous one did; the glyph is re-drawn as `randomChar` of the pick when none exists or the flicker draw is below 0.28, and kept otherwise; the schedule never changes |
| `TextScramble.ShowStable` | src/text-scramble.js:77-80 | rendering the same frame again with the same draws shows the same thing |
| `TextScramble.Update` | src/text-scramble.js:63-97 | the output is the concatenation of every entry's piece at this frame; each entry is updated as `Show` says; another frame is requested if and only if some entry has `frame < end` |
| `TextScramble.LastEnd` | src/text-scramble.js:71-73 | the last end frame bounds every entry's `end` and is the `end` of some entry of a non-empty queue |
| `TextScramble.RenderStable` | src/text-scramble.js:77-80 | the queue `update` leaves behind renders the same frame with the same draws identically |
| `TextScramble.SettledRendersTargets` | src/text-scramble.js:71-73 | once the frame is at or past every entry's `end`, the output is the concatenation of all `to` values |
| `TextScramble.SameScheduleKeeps` | src/text-scramble.js:77-80 | re-drawing glyphs changes neither the concatenated `from` or `to` text nor the last end frame |
| `TextScramble.TargetsPrefix` | src/text-scramble.js:52 | when entry i goes to the target's character i, or nothing past its end, the first k entries' `to` values spell the first k characters of the target |
| `TextScramble.SourcesPrefix` | src/text-scramble.js:51 | when entry i comes from the displayed character i, or nothing past its end, the first k entries' `from` values spell the first k characters of the displayed text |
| `TextScramble.SameScheduleSchedule` | src/text-scramble.js:77-80 | re-drawing glyphs keeps a schedule from the same displayed text to the same target |
| `TextScramble.ScheduleSpans` | src/text-scramble.js:46-57 | in a queue built from `current` to `target`, the `from` values spell `current` and the `to` values spell `target` |
| `TextScramble.RevealFinishes` | src/text-scramble.js:54-55 | every end frame of an n-entry queue is at most 2n+17, and from then on each frame renders exactly the target text |
| `TextScramble.HelloStartsScrambled` | src/text-scramble.js:36-43 | a heading reading "HELLO" starts as five glyphs of `CHARS` |
| `TextScramble.HelloSettles` | src/text-scramble.js:45-57 | any transition to "HELLO" from a text of at most five characters renders "HELLO" from frame 27 on |
| `TextScramble.CutAt` | src/text-scramble.js:113-116 | cutting the text with `substring(0, k)` and `substring(k)` splits it at min(k, length) and loses nothing |
| `TextScramble.CutAround` | src/text-scramble.js:104-108 | cutting the text with `substring(0, k)` and `substring(k + 1)` loses exactly the character at k, and nothing when k is past the end |
| `TextScramble.UpdateText` | src/text-scramble.js:100-124 | without `<br>` in the original markup, the text is written as plain text; with `<br>` and a line feed in the original text, the break replaces the character at the first line feed's index, and that character is dropped; otherwise, when `split` on `<br>` yields exactly two parts, the break is inserted at the length of the markup before it and nothing is dropped; otherwise the text is written as plain text |
| `TextScramble.Scrambled` | src/text-scramble.js:36-41 | the scramble has the original's length; spaces and line feeds stay in place, and every other position holds a character of `CHARS` |
| `TextScramble.Init` | src/text-scramble.js:169-174 | a new heading stores its markup and text, is not revealed, has nothing scheduled or pending, and shows what `updateText` writes for some scramble of its text (same length, spaces and line feeds in place, glyphs of `CHARS` elsewhere), with or without `<br>`; it starts coherent: hidden, showing a scramble, with no frame pending |
| `TextScramble.Scramble` | src/text-scramble.js:29-34 | does nothing when not revealed; otherwise it un-reveals, cancels the pending frame, changes nothing but the view, and shows what `updateText` writes for some fresh scramble of the text; the result is coherent whenever the heading was revealed or already coherent |
| `TextScramble.Reveal` | src/text-scramble.js:22-27 | does nothing when already revealed; otherwise it marks the heading revealed, builds the queue from the displayed text to the original text, renders frame 0, and leaves a frame pending exactly when the queue is non-empty; each entry of the kept queue is a glyph-less entry as frame 0 of `update` leaves it, so every glyph carried on is empty or from `CHARS`, and the heading is left coherent |
| `TextScramble.RevealCoherent` | src/text-scramble.js:22-27 | a heading as `reveal` leaves it is coherent: its schedule ends on its text, its glyphs are empty or from `CHARS`, and when nothing is pending it shows its text |
| `TextScramble.Tick` | src/text-scramble.js:63-97 | without a pending frame nothing changes; with one, the frame advances by one, the schedule is kept, the rendering is written, the kept queue holds each entry as `Show` leaves it at the new frame, so the glyphs drawn carry on to later frames, and another frame is pending exactly when some entry is still before its end; glyphs from `CHARS` stay from `CHARS`, and a coherent heading stays coherent |
| `TextScramble.TickCoherent` | src/text-scramble.js:92-96 | one frame callback keeps the schedule's target text and the glyphs in `CHARS`, and the frame that leaves nothing pending shows the original text |
| `TextScramble.SettleStep` | src/text-scramble.js:92-96 | a frame callback keeps the schedule and moves the frame one step toward the last end frame; once nothing is pending, the target text is shown |
| `TextScramble.Settle` | src/text-scramble.js:63-97 | running frame callbacks until none is pending stops exactly at the queue's last end frame and shows the queue's target text; glyphs stay in `CHARS` and a coherent heading stays coherent throughout |
| `TextScramble.RevealSettles` | src/text-scramble.js:22-27 | a hidden heading that is revealed and left to animate ends revealed, with no frame pending, showing exactly what `updateText` writes for its original text |
| `TextScramble.OnVisibility` | src/text-scramble.js:192-198 | afterwards the revealed flag equals `isIntersecting`; an entry that agrees with the current state changes nothing; an intersecting entry on a hidden heading does exactly what `reveal` does (schedule from the displayed text to the original, frame 0 drawn and shown, a frame pending iff there are entries); a leaving entry is exactly `scramble`; a coherent heading stays coherent |
| `TextScramble.Observe` | src/text-scramble.js:188-198 | an entry for an element without a scrambler is skipped; only the targeted scrambler changes, and it is revealed as `reveal` does when the entry intersects and it was hidden, and is exactly `scramble` of its old state when the entry leaves; coherent scramblers stay coherent |
| `TextScramble.StillUntouched` | src/text-scramble.js:188-190 | an element that no entry so far names keeps its original scrambler |
| `TextScramble.LastWins` | src/text-scramble.js:192-198 | every element named so far is revealed exactly when its last entry so far intersects |
| `TextScramble.HandleIntersection` | src/text-scramble.js:187-200 | the set of scramblers is kept; elements no entry names are unchanged; every named element is revealed exactly when its last entry intersects; and a coherent scrambler stays coherent, so an element whose last entry leaves shows a scramble of its text with no frame pending, and one whose last entry enters animates toward its text with glyphs from `CHARS` |
| `Intensity.Init` | src/ascii-background.js:23-45 | the controller starts with both intensities at 0, no known pointer position (-1, -1), the shader's pointer at the centre (0.5, 0.5), the scroll baseline at the window's current offset, no armed timer and no interaction |
| `Intensity.RootThreshold` | src/ascii-background.js:540-546 | a movement exceeds 2 pixels exactly when its squared length exceeds 4 |
| `Intensity.Accumulate` | src/ascii-background.js:554 | the new target is at most 1 and at most target + gain; it is the exact sum while that sum stays within 1, and exactly 1 once the sum reaches 1; a non-negative gain never lowers a target of at most 1 |
| `Intensity.MoveGain` | src/ascii-background.js:553 | a pointer gain is 0.002 per pixel moved while that stays within 0.03, and exactly 0.03 beyond; it is positive for moves over 2 pixels |
| `Intensity.ScrollGain` | src/ascii-background.js:581 | a scroll gain is 0.0015 per pixel scrolled while that stays within 0.025, and exactly 0.025 beyond; it is positive for scrolls over 1 pixel |
| `Intensity.MouseMoved` | src/ascii-background.js:525-562 | the first move only records the position; a move of length at most 2 only records the position; a longer move also updates the pointer, arms the timer, and raises the target by at most 0.03 without exceeding 1 |
| `Intensity.Scrolled` | src/ascii-background.js:572-590 | a scroll of at most 1 pixel changes nothing, not even the remembered offset; a longer one records the offset, arms the timer, and raises the target by at most 0.025 without exceeding 1 |
| `Intensity.SmallScrollsAddUp` | src/ascii-background.js:574-578 | small scrolls are measured against the last offset that counted, so two ignored-size steps can add up to a qualifying scroll |
| `Intensity.Touched` | src/ascii-background.js:592-619 | a touch always records the position, updates the pointer and arms the timer; the target is raised only when a known previous position is more than 2 pixels away, and then by at most 0.03 |
| `Intensity.Handle` | src/ascii-background.js:524-624 | no event changes the displayed intensity; a valid state stays valid; the target rises by at most 0.03 or drops to 0; any rise arms the timer; leave and touch end set only the target to 0; a fired timer sets the target to 0 and disarms |
| `Intensity.Animate` | src/ascii-background.js:656-664 | the rate is 0.15 when the target is above the intensity and 0.04 otherwise; the eased value snaps to 0 exactly when it is below 0.001 and is kept otherwise; the new value lies between the old value and the target unless it snapped; the result is 0 or at least 0.001, so the shader's `< 0.001` early exit fires only on exact 0; validity is preserved |
| `Intensity.DeadZone` | src/ascii-background.js:658-664 | from intensity 0, a target below 0.001/0.15 keeps the intensity at exactly 0 on every frame |
| `Intensity.ShortMoveStaysDark` | src/ascii-background.js:546-554 | one pointer move of at most 3 pixels over a dark, idle background raises the target too little for any frame to show it |
| `Intensity.RiseStep` | src/ascii-background.js:658-664 | with the target at 1, one frame turns intensity 1 - p into 1 - 0.85p, with no snap |
| `Intensity.FallStep` | src/ascii-background.js:658-664 | with the target at 0, one frame keeps the state valid and shrinks the intensity by at least the factor 0.96 |
| `Intensity.RiseClosedForm` | src/ascii-background.js:658-659 | from 0 with the target held at 1, the intensity after n frames is exactly 1 - 0.85^n |
| `Intensity.RisePowSmall` | src/ascii-background.js:658 | 0.85^n is below 0.1 from n = 15 on |
| `Intensity.FallPowSmall` | src/ascii-background.js:658 | 0.96^n is below 0.00056 from n = 200 on |
| `Intensity.RiseReaches` | src/ascii-background.js:658-659 | from 0 with the target held at 1, the intensity exceeds 0.9 from frame 15 on |
| `Intensity.FallBound` | src/ascii-background.js:658-664 | with the target at 0, the intensity after n frames is at most 0.96^n times its start value, and the state stays valid |
| `Intensity.FallReachesZero` | src/ascii-background.js:203-206 | after the target drops to 0, the intensity is exactly 0 within 200 frames, and the shader takes its early exit |
| `Glyphs.ThresholdsSorted` | src/ascii-background.js:372-383 | the brightness thresholds never decrease |
| `Glyphs.SelectGlyph` | src/ascii-background.js:370-383 | the chain of tests yields the pattern of the brightness's band; a brightness of at most 0.10 gives 4096 (`.`); a brightness above 0.72 gives 33080895 (`M`) |
| `Glyphs.BandMonotone` | src/ascii-background.js:370-383 | the band index never decreases as brightness grows |
| `Glyphs.Character` | src/ascii-background.js:153-160 | the result is 0 or 1; for a pattern below 2^25, read as a 5x5 bitmap, it is 1 exactly when the position falls in the grid and the bitmap's pixel `x + 5y` is set |
| `Glyphs.BitOfPack` | src/ascii-background.js:157 | the bit test `(n >> a) & 1` reads back exactly bit `a` of a packed bitmap |
| `Glyphs.UnpackBits` | src/ascii-background.js:157 | unpacking a number gives, at each position, the bit test at that position |
| `Glyphs.PackUnpack` | src/ascii-background.js:152-157 | any number below 2^k is recovered by unpacking its k bits and packing them again |
| `Glyphs.CodesFit` | src/ascii-background.js:370-383 | every pattern of the table is below 2^25, so it is a 5x5 bitmap |
| `Glyphs.CharacterOfPack` | src/ascii-background.js:153-160 | rendering a packed 5x5 bitmap lights exactly the pixels that are set in it |
| `Glyphs.DotAtCentre` | src/ascii-background.js:153-160 | the centre of a cell lands on pixel 12, which pattern 4096 (`.`) lights |

## Left out

- WebGL setup is not modelled: context creation, shader compilation and linking, buffers, uniforms, `resize` and `render`. These are calls into the graphics API.
- The shader's noise and colour arithmetic is not modelled: `snoise`, `fbm`, `subtleRays`, turbulence, swirl, blob mask, reveal layers, palette and glow. This is GPU floating point. Brightness reaches the glyph table as an input.
- The `time` counter and the `smoothMouse` easing in `animate` are left out. They drift without any stated contract. `hoverIntensity` and `isHovering` are never updated by the source.
- `requestAnimationFrame`, `setTimeout`/`clearTimeout`, `IntersectionObserver` and DOM queries are not modelled. They become explicit calls: `Tick`, a `DecayFired` event and `OnVisibility`. The 200 ms idle delay and the 400 ms hero reveal delay are not modelled; the caller decides when those events happen.
- Intensity.Handle: requires a non-zero viewport width and height. The source divides by `innerWidth` and `innerHeight`, which a real window keeps positive.
- Intensity.Animate: real arithmetic, not IEEE doubles, so rounding is not modelled and no claim is bit-exact.
- The `aria-label` attribute set by the constructor is not modelled. It is not read back.
- HTML parsing of the markup that `updateText` writes is not modelled. The written text is taken to be `before + after`. The source writes glyphs such as `<` and `&` unescaped into `innerHTML`, and a browser may parse them as markup.
- `ScrambleManager.init` and `initHeader` are modelled only through `Init`. Looking up the four selectors and registering with the observer are DOM work.
- `src/main.js` is not part of this model. It holds stateless class toggles and a scroll-offset calculation.
- JsString: strings are sequences of Unicode characters, whereas the source's `length`, indexing, `split('')`, `substring` and `indexOf` count UTF-16 code units. A heading with a character outside the Basic Multilingual Plane gets one queue entry and one scramble glyph per character here, where the source gives two (one per code unit).
- Intensity.MouseMoved: requires a non-zero viewport width and height, for the same reason as `Intensity.Handle`.
- Intensity.Touched: requires a non-zero viewport width and height, for the same reason as `Intensity.Handle`.
- Glyphs.SelectGlyph: the thresholds are compared as exact decimals. The shader compares GLSL floats, where a literal such as `0.10` is only close to one tenth, so a brightness within rounding of a threshold may fall in the neighbouring band there.

=== FILE: glyphs.dfy ===
/** The fragment shader's discrete glyph table: a cell's brightness falls into
    one of thirteen bands, each band names a 5x5 bit pattern packed into an
    integer, and `character` lights a pixel of the cell when the pattern's bit
    for that pixel is set. */
module Glyphs {

  /** The brightness thresholds the shader tests, in order; a brightness
      strictly above `THRESHOLDS[i]` selects `CODES[i]`, later tests winning. */
  const THRESHOLDS: seq<real> := [0.05, 0.10, 0.16, 0.22, 0.28, 0.34, 0.40, 0.46, 0.52, 0.58, 0.64, 0.72]

  /** The patterns: `.` `:` `-` `*` `+` `o` `&` `8` `%` `@` `#` `M`. */
  const CODES: seq<int> := [4096, 65600, 2228224, 163153, 4329604, 15255086, 13121101, 15252014, 32505926, 13195790, 11512810, 33080895]

  /** The pattern before any test passes: `.`, a single lit pixel. */
  const DOT: int := 4096

  /** The pattern of the brightest band: `M`. */
  const EM: int := 33080895

  /** Side of the square glyph grid. */
  const SIDE: int := 5

  /** The thresholds never decrease, so the tests that pass form a prefix. */
  lemma ThresholdsSorted()
    ensures forall i, j :: 0 <= i <= j < |THRESHOLDS| ==> THRESHOLDS[i] <= THRESHOLDS[j]
  {
  }

  /** The first threshold from `k` on that `b` does not exceed, or the end of the table. */
  function FirstNotPassed(b: real, k: nat): (n: nat)
    requires k <= |THRESHOLDS|
    ensures k <= n <= |THRESHOLDS|
    ensures forall j :: k <= j < n ==> b > THRESHOLDS[j]
    ensures n < |THRESHOLDS| ==> b <= THRESHOLDS[n]
    decreases |THRESHOLDS| - k
  {
    if k == |THRESHOLDS| || b <= THRESHOLDS[k] then k else FirstNotPassed(b, k + 1)
  }

  /** The band of a brightness: how many thresholds it lies strictly above. */
  function Band(b: real): nat
  {
    FirstNotPassed(b, 0)
  }

  /** The pattern of band `n`: the last test that passed, or the dot. */
  function BandCode(n: nat): int
    requires n <= |CODES|
  {
    if n == 0 then DOT else CODES[n - 1]
  }

  /** The chain of `if (charBrightness > t) charCode = c;` tests. It selects
      the pattern of the brightness's band: the dot up to 0.10, `M` above 0.72. */
  method SelectGlyph(b: real) returns (code: int)
    ensures code == BandCode(Band(b))
    ensures b <= THRESHOLDS[1] ==> code == DOT
    ensures b > THRESHOLDS[|THRESHOLDS| - 1] ==> code == EM
  {
    ThresholdsSorted();
    var n := Band(b);
    code := DOT;
    var i := 0;
    while i < |THRESHOLDS|
      invariant 0 <= i <= |THRESHOLDS|
      invariant code == BandCode(if i < n then i else n)
    {
      if b > THRESHOLDS[i] {
        code := CODES[i];
      }
      i := i + 1;
    }
  }

  /** A brighter cell never gets a pattern of a lower band. */
  lemma BandMonotone(b1: real, b2: real)
    requires b1 <= b2
    ensures Band(b1) <= Band(b2)
  {
    ThresholdsSorted();
  }

  /** `n >> a` on a GLSL `int`: `a` halvings, each rounding toward minus infinity. */
  function Shr(n: int, a: nat): int
    decreases a
  {
    if a == 0 then n else Shr(n / 2, a - 1)
  }

  /** `((n >> a) & 1) == 1`. */
  predicate Bit(n: int, a: nat)
  {
    Shr(n, a) % 2 == 1
  }

  /** The pixel of the 5x5 grid that the cell-local position `(x, y)` lands
      on, numbered `column + 5 * row`, or -1 outside the grid. */
  function PixelIndex(x: real, y: real): (a: int)
    ensures -1 <= a < SIDE * SIDE
  {
    var px := (x * -4.0 + 2.5).Floor;
    var py := (y * 4.0 + 2.5).Floor;
    if 0 <= px <= 4 && 0 <= py <= 4 then px + SIDE * py else -1
  }

  /** `character(n, p)`: 1 where the pattern lights the pixel under `p`, else 0.
      Read as a 5x5 bitmap, a pattern lights exactly the grid pixels whose bit
      is set. */
  function Character(n: int, x: real, y: real): (lit: real)
    ensures lit == 1.0 || lit == 0.0
    ensures 0 <= n < Pow2(SIDE * SIDE) ==>
              (lit == 1.0 <==> PixelIndex(x, y) >= 0 && Unpack(n, SIDE * SIDE)[PixelIndex(x, y)])
  {
    var a := PixelIndex(x, y);
    if a >= 0 then
      UnpackBits(n, SIDE * SIDE, a);
      if Bit(n, a) then 1.0 else 0.0
    else 0.0
  }

  function Pow2(n: nat): (r: nat)
    ensures r > 0
  {
    if n == 0 then 1 else 2 * Pow2(n - 1)
  }

  /** Packs a bitmap, pixel 0 first, into the integer whose bit `a` is pixel `a`. */
  function Pack(bits: seq<bool>): (n: nat)
    ensures n < Pow2(|bits|)
    decreases |bits|
  {
    if bits == [] then 0 else (if bits[0] then 1 else 0) + 2 * Pack(bits[1..])
  }

  /** The `k` low bits of `n`, pixel 0 first. */
  function Unpack(n: int, k: nat): (bits: seq<bool>)
    ensures |bits| == k
    decreases k
  {
    if k == 0 then [] else [n % 2 == 1] + Unpack(n / 2, k - 1)
  }

  /** The bit test reads back exactly the pixels that were packed. */
  lemma {:induction false} BitOfPack(bits: seq<bool>, a: nat)
    requires a < |bits|
    ensures Bit(Pack(bits), a) == bits[a]
    decreases a
  {
    var rest := Pack(bits[1..]);
    assert Pack(bits) / 2 == rest;
    if a > 0 {
      BitOfPack(bits[1..], a - 1);
    }
  }

  /** The unpacked bits are the bit tests of the number. */
  lemma {:induction false} UnpackBits(n: int, k: nat, a: nat)
    requires a < k
    ensures Unpack(n, k)[a] == Bit(n, a)
    decreases a
  {
    if a > 0 {
      UnpackBits(n / 2, k - 1, a - 1);
    }
  }

  /** A number below `2^k` is its own `k`-bit bitmap: packing what was unpacked gives it back. */
  lemma {:induction false} PackUnpack(n: int, k: nat)
    requires 0 <= n < Pow2(k)
    ensures Pack(Unpack(n, k)) == n
    decreases k
  {
    if k > 0 {
      PackUnpack(n / 2, k - 1);
      assert Unpack(n, k)[1..] == Unpack(n / 2, k - 1);
    }
  }

  /** Every pattern of the table fits the 25 pixels of the grid. */
  lemma CodesFit()
    ensures Pow2(SIDE * SIDE) == 33554432
    ensures forall i :: 0 <= i < |CODES| ==> 0 <= CODES[i] < Pow2(SIDE * SIDE)
    ensures 0 <= DOT < Pow2(SIDE * SIDE)
  {
    assert Pow2(1) == 2;
    assert Pow2(2) == 4;
    assert Pow2(3) == 8;
    assert Pow2(4) == 16;
    assert Pow2(5) == 32;
    assert Pow2(6) == 64;
    assert Pow2(7) == 128;
    assert Pow2(8) == 256;
    assert Pow2(9) == 512;
    assert Pow2(10) == 1024;
    assert Pow2(11) == 2048;
    assert Pow2(12) == 4096;
    assert Pow2(13) == 8192;
    assert Pow2(14) == 16384;
    assert Pow2(15) == 32768;
    assert Pow2(16) == 65536;
    assert Pow2(17) == 131072;
    assert Pow2(18) == 262144;
    assert Pow2(19) == 524288;
    assert Pow2(20) == 1048576;
    assert Pow2(21) == 2097152;
    assert Pow2(22) == 4194304;
    assert Pow2(23) == 8388608;
    assert Pow2(24) == 16777216;
    assert Pow2(25) == 33554432;
  }

  /** Rendering a packed 5x5 bitmap lights exactly its set pixels. */
  lemma CharacterOfPack(bits: seq<bool>, x: real, y: real)
    requires |bits| == SIDE * SIDE
    ensures Character(Pack(bits), x, y) == 1.0 <==> PixelIndex(x, y) >= 0 && bits[PixelIndex(x, y)]
  {
    var a := PixelIndex(x, y);
    if a >= 0 {
      BitOfPack(bits, a);
    }
  }

  /** The centre of a cell lands on pixel 12, the dot's only lit pixel. */
  lemma DotAtCentre()
    ensures PixelIndex(0.0, 0.0) == 2 + SIDE * 2
    ensures Bit(DOT, 2 + SIDE * 2)
    ensures Character(DOT, 0.0, 0.0) == 1.0
  {
    assert Shr(DOT, 12) == 1;
  }
}

=== FILE: intensity.dfy ===
/** The interaction-intensity controller of the ASCII background. Pointer,
    scroll and touch events raise a saturating target; leaving, lifting the
    finger and the idle timer drop it to zero; each animation frame moves the
    displayed intensity toward the target, fast on the way up and slowly on the
    way down, and snaps tiny values to exactly zero so that the shader can skip
    the frame. Numbers are Dafny reals: floating-point rounding is not modelled. */
module Intensity {

  /** `maxIntensity`: the target saturates here. */
  const MAX_INTENSITY: real := 1.0
  /** Per-frame easing rate while the target is above the intensity. */
  const RISE: real := 0.15
  /** Per-frame easing rate otherwise. */
  const FALL: real := 0.04
  /** Intensities below this snap to 0; the shader exits early below it. */
  const SNAP: real := 0.001
  /** A pointer move must cover more than this many pixels to count. */
  const MOVE_THRESHOLD: real := 2.0
  const MOVE_GAIN: real := 0.002
  const MOVE_CAP: real := 0.03
  /** A scroll must move more than this many pixels to count. */
  const SCROLL_THRESHOLD: real := 1.0
  const SCROLL_GAIN: real := 0.0015
  const SCROLL_CAP: real := 0.025
  /** The `lastMouseX` value meaning that no pointer position is known yet. */
  const UNSET: real := -1.0

  datatype Point = Point(x: real, y: real)

  /** `window.innerWidth` and `window.innerHeight`. */
  datatype Viewport = Viewport(width: real, height: real)

  /** The controller's input state: displayed and target intensity, the last
      pointer position and scroll offset, the normalised pointer handed to the
      shader, whether the idle timer is armed, and whether the user interacted. */
  datatype Background = Background(
    intensity: real,
    target: real,
    lastMouse: Point,
    lastScrollY: real,
    mouse: Point,
    armed: bool,
    interacted: bool)

  /** The inputs the controller listens to. `DecayFired` is the idle timer's callback. */
  datatype Event =
    | MouseMove(x: real, y: real)
    | Scroll(y: real)
    | TouchMove(touches: seq<Point>)
    | MouseLeave
    | TouchEnd
    | DecayFired

  /** Both intensities lie in [0, 1], and the displayed one is either exactly 0
      or large enough to be rendered. */
  predicate Valid(b: Background)
  {
    && 0.0 <= b.target <= MAX_INTENSITY
    && 0.0 <= b.intensity <= MAX_INTENSITY
    && (b.intensity == 0.0 || b.intensity >= SNAP)
  }

  /** The shader's `uIntensity < 0.001` test, which returns the background colour. */
  predicate EarlyExit(u: real)
  {
    u < SNAP
  }

  /** The constructor's state: nothing shown, no pointer position known. */
  function Init(scrollY: real): (b: Background)
    ensures Valid(b) && b.intensity == 0.0 && b.target == 0.0
    ensures b.lastMouse == Point(UNSET, UNSET) && !b.armed && !b.interacted
    ensures b.lastScrollY == scrollY && b.mouse == Point(0.5, 0.5)
  {
    Background(0.0, 0.0, Point(UNSET, UNSET), scrollY, Point(0.5, 0.5), false, false)
  }

  function Min(a: real, b: real): real
  {
    if a < b then a else b
  }

  function Abs(x: real): real
  {
    if x < 0.0 then -x else x
  }

  /** Squared Euclidean distance between two pointer positions. */
  function Dist2(a: Point, b: Point): real
  {
    (b.x - a.x) * (b.x - a.x) + (b.y - a.y) * (b.y - a.y)
  }

  /** `root` is what `Math.sqrt(dx * dx + dy * dy)` returns for the move from `a` to `b`. */
  predicate IsDistance(root: real, a: Point, b: Point)
  {
    root >= 0.0 && root * root == Dist2(a, b)
  }

  /** A non-negative root exceeds the threshold exactly when its square does. */
  lemma RootThreshold(root: real, a: Point, b: Point)
    requires IsDistance(root, a, b)
    ensures root > MOVE_THRESHOLD <==> Dist2(a, b) > MOVE_THRESHOLD * MOVE_THRESHOLD
  {
    assert MOVE_THRESHOLD * MOVE_THRESHOLD == 4.0;
    if root > MOVE_THRESHOLD {
      assert root * root > MOVE_THRESHOLD * root > 4.0;
    } else {
      assert root * root <= MOVE_THRESHOLD * root <= 4.0;
    }
  }

  /** `Math.min(targetIntensity + gain, maxIntensity)`. */
  function Accumulate(target: real, gain: real): (t: real)
    ensures t <= MAX_INTENSITY && t <= target + gain
    ensures 0.0 <= gain && target <= MAX_INTENSITY ==> target <= t
    ensures target + gain <= MAX_INTENSITY ==> t == target + gain
    ensures target + gain >= MAX_INTENSITY ==> t == MAX_INTENSITY
  {
    Min(target + gain, MAX_INTENSITY)
  }

  /** `Math.min(moved * 0.002, 0.03)`. */
  function MoveGain(moved: real): (g: real)
    ensures g <= MOVE_CAP
    ensures moved > MOVE_THRESHOLD ==> g > 0.0
    ensures moved * MOVE_GAIN <= MOVE_CAP ==> g == moved * MOVE_GAIN
    ensures moved * MOVE_GAIN >= MOVE_CAP ==> g == MOVE_CAP
  {
    Min(moved * MOVE_GAIN, MOVE_CAP)
  }

  /** `Math.min(scrollDelta * 0.0015, 0.025)`. */
  function ScrollGain(delta: real): (g: real)
    ensures g <= SCROLL_CAP
    ensures delta > SCROLL_THRESHOLD ==> g > 0.0
    ensures delta * SCROLL_GAIN <= SCROLL_CAP ==> g == delta * SCROLL_GAIN
    ensures delta * SCROLL_GAIN >= SCROLL_CAP ==> g == SCROLL_CAP
  {
    Min(delta * SCROLL_GAIN, SCROLL_CAP)
  }

  /** The pointer position the shader receives: x across, y up from the bottom. */
  function Normalize(p: Point, vp: Viewport): Point
    requires vp.width != 0.0 && vp.height != 0.0
  {
    Point(p.x / vp.width, 1.0 - p.y / vp.height)
  }

  /** The `mousemove` handler; `root` is the host's square root of the move's length. */
  function MouseMoved(b: Background, p: Point, vp: Viewport, root: real): (r: Background)
    requires vp.width != 0.0 && vp.height != 0.0
    requires b.lastMouse.x != UNSET ==> IsDistance(root, b.lastMouse, p)
    ensures b.lastMouse.x == UNSET ==> r == b.(lastMouse := p)
    ensures b.lastMouse.x != UNSET && Dist2(b.lastMouse, p) <= 4.0 ==> r == b.(lastMouse := p)
    ensures b.lastMouse.x != UNSET && Dist2(b.lastMouse, p) > 4.0 ==>
              && r == b.(lastMouse := p, mouse := Normalize(p, vp), target := r.target, armed := true, interacted := true)
              && r.target == Accumulate(b.target, MoveGain(root))
    ensures r.target <= b.target + MOVE_CAP
    ensures 0.0 <= b.target <= MAX_INTENSITY ==> b.target <= r.target <= MAX_INTENSITY
  {
    if b.lastMouse.x == UNSET then
      b.(lastMouse := p)
    else
      var moved := root;
      RootThreshold(root, b.lastMouse, p);
      var b' := b.(lastMouse := p);
      if moved > MOVE_THRESHOLD then
        b'.(interacted := true,
            mouse := Normalize(p, vp),
            target := Accumulate(b.target, MoveGain(moved)),
            armed := true)
      else
        b'
  }

  /** The `scroll` handler. A scroll that moved one pixel or less changes
      nothing, not even the remembered offset, so small scrolls add up against
      the last offset that counted. */
  function Scrolled(b: Background, y: real): (r: Background)
    ensures Abs(y - b.lastScrollY) <= SCROLL_THRESHOLD ==> r == b
    ensures Abs(y - b.lastScrollY) > SCROLL_THRESHOLD ==>
              && r == b.(lastScrollY := y, target := r.target, armed := true, interacted := true)
              && r.target == Accumulate(b.target, ScrollGain(Abs(y - b.lastScrollY)))
    ensures r.target <= b.target + SCROLL_CAP
    ensures 0.0 <= b.target <= MAX_INTENSITY ==> b.target <= r.target <= MAX_INTENSITY
  {
    var delta := Abs(y - b.lastScrollY);
    if delta > SCROLL_THRESHOLD then
      b.(interacted := true,
         lastScrollY := y,
         target := Accumulate(b.target, ScrollGain(delta)),
         armed := true)
    else
      b
  }

  /** Two scrolls of at most one pixel each from the same baseline: the first
      is ignored, and the second counts as soon as the two add up to more. */
  lemma SmallScrollsAddUp(b: Background, y1: real, y2: real)
    requires Abs(y1 - b.lastScrollY) <= SCROLL_THRESHOLD
    requires Abs(y2 - b.lastScrollY) > SCROLL_THRESHOLD
    ensures Scrolled(b, y1) == b
    ensures Scrolled(Scrolled(b, y1), y2).lastScrollY == y2
    ensures Scrolled(Scrolled(b, y1), y2).armed
  {
  }

  /** The `touchmove` handler for a touch at `p`. Unlike the mouse handler it
      always records the position, moves the shader's pointer and re-arms the
      idle timer; only the intensity gain is gated by the distance. */
  function Touched(b: Background, p: Point, vp: Viewport, root: real): (r: Background)
    requires vp.width != 0.0 && vp.height != 0.0
    requires b.lastMouse.x != UNSET ==> IsDistance(root, b.lastMouse, p)
    ensures r == b.(lastMouse := p, mouse := Normalize(p, vp), target := r.target, armed := true, interacted := true)
    ensures b.lastMouse.x == UNSET || Dist2(b.lastMouse, p) <= 4.0 ==> r.target == b.target
    ensures b.lastMouse.x != UNSET && Dist2(b.lastMouse, p) > 4.0 ==> r.target == Accumulate(b.target, MoveGain(root))
    ensures r.target <= b.target + MOVE_CAP
    ensures 0.0 <= b.target <= MAX_INTENSITY ==> b.target <= r.target <= MAX_INTENSITY
  {
    var target :=
      if b.lastMouse.x != UNSET then
        RootThreshold(root, b.lastMouse, p);
        if root > MOVE_THRESHOLD then Accumulate(b.target, MoveGain(root)) else b.target
      else b.target;
    b.(target := target, lastMouse := p, interacted := true, mouse := Normalize(p, vp), armed := true)
  }

  /** What the host's square root must satisfy for event `e` in state `b`. */
  predicate RootFits(b: Background, e: Event, root: real)
  {
    match e
    case MouseMove(x, y) => b.lastMouse.x != UNSET ==> IsDistance(root, b.lastMouse, Point(x, y))
    case TouchMove(ts) => |ts| > 0 && b.lastMouse.x != UNSET ==> IsDistance(root, b.lastMouse, ts[0])
    case _ => true
  }

  /** The event handlers bound by `bindEvents`, plus the idle timer's callback.
      No event touches the displayed intensity; the target only rises by a
      bounded gain or drops to exactly 0; any rise re-arms the idle timer. */
  function Handle(b: Background, e: Event, vp: Viewport, root: real): (r: Background)
    requires vp.width != 0.0 && vp.height != 0.0
    requires RootFits(b, e, root)
    ensures r.intensity == b.intensity
    ensures Valid(b) ==> Valid(r)
    ensures 0.0 <= b.target ==> r.target <= b.target + MOVE_CAP
    ensures 0.0 <= b.target <= MAX_INTENSITY ==> r.target == 0.0 || b.target <= r.target <= MAX_INTENSITY
    ensures 0.0 <= b.target && r.target > b.target ==> r.armed && r.interacted
    ensures e.MouseLeave? || e.TouchEnd? ==> r == b.(target := 0.0)
    ensures e.DecayFired? && b.armed ==> r == b.(target := 0.0, armed := false)
    ensures e.DecayFired? && !b.armed ==> r == b
  {
    match e
    case MouseMove(x, y) => MouseMoved(b, Point(x, y), vp, root)
    case Scroll(y) => Scrolled(b, y)
    case TouchMove(ts) => if |ts| > 0 then Touched(b, ts[0], vp, root) else b
    case MouseLeave => b.(target := 0.0)
    case TouchEnd => b.(target := 0.0)
    case DecayFired => if b.armed then b.(target := 0.0, armed := false) else b
  }

  /** The intensity update of `animate`: ease toward the target at `RISE` when
      it is above, at `FALL` otherwise, then snap anything below `SNAP` to 0.
      The new value lies between the old one and the target unless it snapped,
      and the shader's early exit fires on it exactly when it is 0. */
  function Animate(b: Background): (r: Background)
    ensures r == b.(intensity := r.intensity)
    ensures r.intensity == 0.0 || r.intensity >= SNAP
    ensures EarlyExit(r.intensity) <==> r.intensity == 0.0
    ensures b.target > b.intensity ==> r.intensity == 0.0 || b.intensity < r.intensity <= b.target
    ensures b.target <= b.intensity ==> r.intensity == 0.0 || b.target <= r.intensity <= b.intensity
    ensures b.target > b.intensity && r.intensity != 0.0 ==> r.intensity == b.intensity + RISE * (b.target - b.intensity)
    ensures b.target <= b.intensity && r.intensity != 0.0 ==> r.intensity == b.intensity - FALL * (b.intensity - b.target)
    ensures b.target > b.intensity ==> (r.intensity == 0.0 <==> b.intensity + RISE * (b.target - b.intensity) < SNAP)
    ensures b.target <= b.intensity ==> (r.intensity == 0.0 <==> b.intensity - FALL * (b.intensity - b.target) < SNAP)
    ensures Valid(b) ==> Valid(r)
  {
    var speed := if b.target > b.intensity then RISE else FALL;
    var next := b.intensity + (b.target - b.intensity) * speed;
    b.(intensity := if next < SNAP then 0.0 else next)
  }

  /** `n` animation frames with no input in between. */
  function Run(b: Background, n: nat): Background
  {
    if n == 0 then b else Animate(Run(b, n - 1))
  }

  function Pow(x: real, n: nat): real
  {
    if n == 0 then 1.0 else x * Pow(x, n - 1)
  }

  /** A displayed intensity of 0 with a target below `SNAP / RISE` stays 0 for
      ever: such a target never makes the background visible. */
  lemma {:induction false} DeadZone(b: Background, n: nat)
    requires b.intensity == 0.0
    requires 0.0 <= b.target < SNAP / RISE
    ensures Run(b, n).intensity == 0.0
    ensures Run(b, n).target == b.target
  {
    if n > 0 {
      DeadZone(b, n - 1);
    }
  }

  /** One pointer move of at most 3 pixels over a dark, idle background never
      makes it visible: its gain stays below `SNAP / RISE`. */
  lemma ShortMoveStaysDark(b: Background, p: Point, vp: Viewport, root: real, n: nat)
    requires vp.width != 0.0 && vp.height != 0.0
    requires b.intensity == 0.0 && b.target == 0.0
    requires b.lastMouse.x != UNSET && IsDistance(root, b.lastMouse, p) && root <= 3.0
    ensures Run(MouseMoved(b, p, vp, root), n).intensity == 0.0
  {
    DeadZone(MouseMoved(b, p, vp, root), n);
  }

  /** With the target held at 1 from a dark start, `n` frames give exactly
      `1 - 0.85^n`. */
  lemma {:induction false} RiseClosedForm(b: Background, n: nat)
    requires b.intensity == 0.0 && b.target == MAX_INTENSITY
    ensures Run(b, n).target == MAX_INTENSITY
    ensures Run(b, n).intensity == 1.0 - Pow(1.0 - RISE, n)
    ensures 0.0 < Pow(1.0 - RISE, n) <= 1.0
  {
    if n > 0 {
      RiseClosedForm(b, n - 1);
      RiseStep(Run(b, n - 1), Pow(1.0 - RISE, n - 1));
    }
  }

  /** One frame of the rise: `1 - p` becomes `1 - 0.85 p`. */
  lemma RiseStep(prev: Background, p: real)
    requires prev.target == MAX_INTENSITY && prev.intensity == 1.0 - p
    requires 0.0 < p <= 1.0
    ensures Animate(prev).target == MAX_INTENSITY
    ensures Animate(prev).intensity == 1.0 - (1.0 - RISE) * p
    ensures 0.0 < (1.0 - RISE) * p <= 1.0
  {
  }

  lemma {:induction false} PowSplit(x: real, m: nat, n: nat)
    ensures Pow(x, m + n) == Pow(x, m) * Pow(x, n)
  {
    if m > 0 {
      PowSplit(x, m - 1, n);
      Assoc(x, Pow(x, m - 1), Pow(x, n));
    }
  }

  lemma Assoc(x: real, y: real, z: real)
    ensures x * (y * z) == (x * y) * z
  {
  }

  lemma PowFive(x: real)
    ensures Pow(x, 5) == x * x * x * x * x
  {
    assert Pow(x, 1) == x;
    assert Pow(x, 3) == x * x * x;
  }

  /** Scaling a non-negative value by a factor in [0, 1] keeps it in [0, p]. */
  lemma Scale(x: real, p: real)
    requires 0.0 <= x <= 1.0 && 0.0 <= p
    ensures 0.0 <= x * p <= p
  {
  }

  /** Products of non-negative values respect upper bounds. */
  lemma MulBelow(a: real, b: real, ca: real, cb: real)
    requires 0.0 <= a <= ca && 0.0 <= b <= cb
    ensures 0.0 <= a * b <= ca * cb
  {
    assert a * b <= ca * b;
    assert ca * b <= ca * cb;
  }

  lemma {:induction false} PowShrinks(x: real, m: nat, n: nat)
    requires 0.0 <= x <= 1.0
    requires m <= n
    ensures 0.0 <= Pow(x, n) <= Pow(x, m)
    decreases n
  {
    if n > 0 {
      if m < n {
        PowShrinks(x, m, n - 1);
      } else {
        PowShrinks(x, n - 1, n - 1);
      }
      var p := Pow(x, n - 1);
      Scale(x, p);
      assert Pow(x, n) == x * p;
    }
  }

  /** Squaring a bounded power: `x^(2k) <= c^2` from `x^k <= c`. */
  lemma PowSquare(x: real, k: nat, c: real)
    requires 0.0 <= x <= 1.0 && Pow(x, k) <= c
    ensures Pow(x, k + k) <= c * c
  {
    PowSplit(x, k, k);
    PowShrinks(x, 0, k);
    MulBelow(Pow(x, k), Pow(x, k), c, c);
  }

  /** `0.85^n` is below 0.1 from `n = 15` on. */
  lemma RisePowSmall(n: nat)
    requires n >= 15
    ensures Pow(1.0 - RISE, n) < 0.1
  {
    var x := 1.0 - RISE;
    PowFive(x);
    assert Pow(x, 5) <= 0.45;
    PowSquare(x, 5, 0.45);
    PowSplit(x, 10, 5);
    PowShrinks(x, 0, 10);
    PowShrinks(x, 0, 5);
    MulBelow(Pow(x, 10), Pow(x, 5), 0.2025, 0.45);
    PowShrinks(x, 15, n);
  }

  /** With the target held at 1 from a dark start, the intensity exceeds 0.9
      after 15 frames and stays above it. */
  lemma RiseReaches(b: Background, n: nat)
    requires b.intensity == 0.0 && b.target == MAX_INTENSITY
    requires n >= 15
    ensures Run(b, n).intensity > 0.9
  {
    RiseClosedForm(b, n);
    RisePowSmall(n);
  }

  /** One frame of the fall: the intensity at most shrinks by `1 - FALL`. */
  lemma FallStep(prev: Background, p: real)
    requires Valid(prev) && prev.target == 0.0 && prev.intensity <= p
    ensures Animate(prev).target == 0.0 && Valid(Animate(prev))
    ensures Animate(prev).intensity <= (1.0 - FALL) * p
  {
  }

  /** `v` shrunk by the factor `1 - FALL` on each of `n` frames. */
  function Faded(v: real, n: nat): real
  {
    if n == 0 then v else (1.0 - FALL) * Faded(v, n - 1)
  }

  lemma {:induction false} FadedIsPow(v: real, n: nat)
    ensures Faded(v, n) == Pow(1.0 - FALL, n) * v
  {
    if n > 0 {
      FadedIsPow(v, n - 1);
      Assoc(1.0 - FALL, Pow(1.0 - FALL, n - 1), v);
    }
  }

  /** With the target at 0, the intensity stays below its faded start value. */
  lemma {:induction false} FallFades(b: Background, n: nat)
    requires Valid(b) && b.target == 0.0
    ensures Run(b, n).target == 0.0 && Valid(Run(b, n))
    ensures Run(b, n).intensity <= Faded(b.intensity, n)
  {
    if n > 0 {
      FallFades(b, n - 1);
      FallStep(Run(b, n - 1), Faded(b.intensity, n - 1));
    }
  }

  /** With the target at 0, every frame keeps or lowers the intensity: it
      shrinks by the factor `1 - FALL` until it snaps to 0. */
  lemma FallBound(b: Background, n: nat)
    requires Valid(b) && b.target == 0.0
    ensures Run(b, n).target == 0.0 && Valid(Run(b, n))
    ensures Run(b, n).intensity <= Pow(1.0 - FALL, n) * b.intensity
  {
    FallFades(b, n);
    FadedIsPow(b.intensity, n);
  }

  /** `0.96^n` is below 0.00056 from `n = 200` on. */
  lemma FallPowSmall(n: nat)
    requires n >= 200
    ensures 0.0 <= Pow(1.0 - FALL, n) <= 0.00056
  {
    var x := 1.0 - FALL;
    PowFive(x);
    assert Pow(x, 5) <= 0.82;
    PowSquare(x, 5, 0.82);
    PowSquare(x, 10, 0.68);
    PowSquare(x, 20, 0.47);
    PowSquare(x, 40, 0.221);
    PowSquare(x, 80, 0.049);
    PowSplit(x, 160, 40);
    PowShrinks(x, 0, 160);
    PowShrinks(x, 0, 40);
    MulBelow(Pow(x, 160), Pow(x, 40), 0.0025, 0.221);
    PowShrinks(x, 200, n);
  }

  /** Once the idle timer has dropped the target, the background goes dark
      (intensity exactly 0, early exit in the shader) within 200 frames. */
  lemma FallReachesZero(b: Background, n: nat)
    requires Valid(b) && b.target == 0.0
    requires n >= 200
    ensures Run(b, n).intensity == 0.0
    ensures EarlyExit(Run(b, n).intensity)
  {
    FallBound(b, n);
    FallPowSmall(n);
    MulBelow(Pow(1.0 - FALL, n), b.intensity, 0.00056, 1.0);
  }
}

=== FILE: js_string.dfy ===
/** The handful of JavaScript string built-ins the scramble effect relies on,
    written over `seq<char>`: `substring`, `indexOf` of one character,
    `includes` and `split` on a separator. */
module JsString {

  /** Clamps a `substring` bound into [0, n], as JavaScript does. */
  function Clamp(k: int, n: nat): nat
  {
    if k < 0 then 0 else if k > n then n else k
  }

  /** `s.substring(a, b)`: both bounds are clamped into [0, |s|] and swapped
      when they are out of order, so it never fails. */
  function Substring(s: string, a: int, b: int): (r: string)
    ensures 0 <= a <= b <= |s| ==> r == s[a..b]
    ensures 0 <= b <= a <= |s| ==> r == s[b..a]
    ensures a <= 0 && |s| <= b ==> r == s
    ensures |s| <= a && |s| <= b ==> r == []
    ensures |r| <= |s|
  {
    var lo := Clamp(a, |s|);
    var hi := Clamp(b, |s|);
    if lo <= hi then s[lo..hi] else s[hi..lo]
  }

  /** `s.indexOf(c)`: the first position of `c`, or -1 when it is absent. */
  function IndexOf(s: string, c: char): (r: int)
    ensures -1 <= r < |s|
    ensures r == -1 <==> c !in s
    ensures r >= 0 ==> s[r] == c && forall j :: 0 <= j < r ==> s[j] != c
  {
    if |s| == 0 then -1
    else if s[0] == c then 0
    else
      var k := IndexOf(s[1..], c);
      assert s == [s[0]] + s[1..];
      if k == -1 then -1 else k + 1
  }

  /** `pat` occurs in `s` starting at position `i`. */
  predicate MatchAt(s: string, pat: string, i: nat)
  {
    i + |pat| <= |s| && s[i..i + |pat|] == pat
  }

  /** `s.includes(pat)`. */
  predicate Includes(s: string, pat: string)
  {
    exists i: nat | i <= |s| :: MatchAt(s, pat, i)
  }

  /** The inverse of `split`: the parts joined with the separator between them. */
  function Join(parts: seq<string>, sep: string): string
    requires |parts| >= 1
    decreases |parts|
  {
    if |parts| == 1 then parts[0] else parts[0] + sep + Join(parts[1..], sep)
  }

  /** `s.split(sep)` for a non-empty separator: scanning left to right, every
      occurrence of `sep` closes the current part and is dropped. The parts
      joined back with `sep` give `s` again, and no part holds `sep`; for a
      separator that cannot overlap itself, such as `<br>`, this fixes the
      parts. `SplitHead` pins the first part for any separator. */
  function Split(s: string, sep: string): (parts: seq<string>)
    requires |sep| > 0
    ensures |parts| >= 1
    ensures Join(parts, sep) == s
    ensures forall k :: 0 <= k < |parts| ==> !Includes(parts[k], sep)
    decreases |s|
  {
    if |s| < |sep| then
      assert !Includes(s, sep);
      [s]
    else if s[..|sep|] == sep then
      var rest := Split(s[|sep|..], sep);
      assert s == sep + s[|sep|..];
      assert !Includes([], sep);
      [[]] + rest
    else
      var rest := Split(s[1..], sep);
      var parts := [[s[0]] + rest[0]] + rest[1..];
      assert parts[1..] == rest[1..];
      assert s == [s[0]] + s[1..];
      JoinPrefix(rest, sep);
      ConsFree(s, sep, rest[0]);
      if |rest| == 1 then parts
      else
        assert Join(rest, sep) == rest[0] + sep + Join(rest[1..], sep);
        assert Join(parts, sep) == ([s[0]] + rest[0]) + sep + Join(rest[1..], sep);
        parts
  }

  /** One unfolding of `split`: a separator at the front closes an empty first
      part; any other first character joins the first part of the rest. */
  lemma SplitUnfold(s: string, sep: string)
    requires |sep| > 0 && |s| >= |sep|
    ensures s[..|sep|] == sep ==> Split(s, sep) == [[]] + Split(s[|sep|..], sep)
    ensures s[..|sep|] != sep ==>
              && |Split(s, sep)| == |Split(s[1..], sep)|
              && Split(s, sep)[0] == [s[0]] + Split(s[1..], sep)[0]
  {
  }

  /** A match in the tail is a match one position later in the whole string. */
  lemma MatchShift(s: string, pat: string, i: nat)
    requires |s| > 0
    ensures MatchAt(s[1..], pat, i) <==> MatchAt(s, pat, i + 1)
  {
    if i + 1 + |pat| <= |s| {
      assert s[1..][i..i + |pat|] == s[i + 1..i + 1 + |pat|];
    }
  }

  /** When the separator does not start `s`, it occurs in `s` exactly when it
      occurs in the tail. */
  lemma IncludesShift(s: string, sep: string)
    requires |sep| > 0 && |s| >= |sep| && s[..|sep|] != sep
    ensures Includes(s, sep) <==> Includes(s[1..], sep)
  {
    if Includes(s[1..], sep) {
      var i: nat :| i <= |s[1..]| && MatchAt(s[1..], sep, i);
      MatchShift(s, sep, i);
    }
    if Includes(s, sep) {
      var i: nat :| i <= |s| && MatchAt(s, sep, i);
      if i == 0 {
      } else {
        MatchShift(s, sep, i - 1);
        assert MatchAt(s[1..], sep, i - 1);
      }
    }
  }

  /** The joined string starts with the first part. */
  lemma JoinPrefix(parts: seq<string>, sep: string)
    requires |parts| >= 1
    ensures |parts[0]| <= |Join(parts, sep)| && Join(parts, sep)[..|parts[0]|] == parts[0]
  {
    if |parts| > 1 {
      assert Join(parts, sep) == parts[0] + (sep + Join(parts[1..], sep));
    }
  }

  /** Putting in front of a separator-free `h` the character that precedes it
      in `s` gives a separator-free string, when `s` does not start with the
      separator. */
  lemma ConsFree(s: string, sep: string, h: string)
    requires |sep| > 0 && |h| < |s|
    requires |s| >= |sep| ==> s[..|sep|] != sep
    requires s[1..][..|h|] == h && !Includes(h, sep)
    ensures !Includes([s[0]] + h, sep)
  {
    var p := [s[0]] + h;
    assert p == s[..|h| + 1];
    if |p| >= |sep| {
      assert p[..|sep|] == s[..|sep|];
      assert p[1..] == h;
      IncludesShift(p, sep);
    } else {
      forall i: nat | i <= |p|
        ensures !MatchAt(p, sep, i)
      {
      }
    }
  }

  /** `split` yields more than one part exactly when the separator occurs. */
  lemma {:induction false} SplitsIffIncludes(s: string, sep: string)
    requires |sep| > 0
    ensures |Split(s, sep)| >= 2 <==> Includes(s, sep)
    decreases |s|
  {
    if |s| < |sep| {
      assert !Includes(s, sep);
    } else if s[..|sep|] == sep {
      SplitUnfold(s, sep);
      assert MatchAt(s, sep, 0);
    } else {
      SplitUnfold(s, sep);
      SplitsIffIncludes(s[1..], sep);
      IncludesShift(s, sep);
    }
  }

  /** When `split` produced at least two parts, the first part is exactly the
      text before the first occurrence of the separator. */
  lemma {:induction false} SplitHead(s: string, sep: string)
    requires |sep| > 0
    requires |Split(s, sep)| >= 2
    ensures MatchAt(s, sep, |Split(s, sep)[0]|)
    ensures s[..|Split(s, sep)[0]|] == Split(s, sep)[0]
    ensures !Includes(Split(s, sep)[0], sep)
    decreases |s|
  {
    SplitUnfold(s, sep);
    if s[..|sep|] == sep {
      assert Split(s, sep)[0] == [];
    } else {
      var h := Split(s[1..], sep)[0];
      SplitHead(s[1..], sep);
      HeadStep(s, sep, h);
    }
  }

  /** The inductive step of `SplitHead`: a first part `h` of the tail that ends
      at the first separator of the tail gives the first part `s[0] + h` of `s`. */
  lemma HeadStep(s: string, sep: string, h: string)
    requires |sep| > 0 && |s| >= |sep| && s[..|sep|] != sep
    requires MatchAt(s[1..], sep, |h|) && s[1..][..|h|] == h && !Includes(h, sep)
    ensures MatchAt(s, sep, |h| + 1)
    ensures s[..|h| + 1] == [s[0]] + h
    ensures !Includes([s[0]] + h, sep)
  {
    MatchShift(s, sep, |h|);
    assert s[..|h| + 1] == [s[0]] + s[1..][..|h|];
    var p := [s[0]] + h;
    assert p == s[..|h| + 1];
    forall i: nat | i <= |p|
      ensures !MatchAt(p, sep, i)
    {
      if i == 0 {
        if |sep| <= |p| {
          assert p[..|sep|] == s[..|sep|];
        }
      } else {
        assert p[1..] == h;
        MatchShift(p, sep, i - 1);
        assert !MatchAt(h, sep, i - 1);
      }
    }
  }
}

=== FILE: text_scramble.dfy ===
/** The scramble-to-reveal effect of one heading: a per-character schedule from
    the displayed text to a target text, the frame-by-frame rendering of that
    schedule, the instant re-scramble, and the revealed/scrambled guard driven
    by viewport visibility. `Math.random()` is an oracle: a function from the
    draw's index to a real in [0, 1). */
module TextScramble {
  import opened JsString

  /** The alphabet scrambled characters are drawn from. */
  const CHARS: string := "ABCDEFGHIJKLMNOPQRSTUVWXYZ0123456789!@#$%&*<>[]{}"

  /** Probability, per frame, that a flickering character draws a new glyph. */
  const FLICKER: real := 0.28

  /** The line-break tag the hero heading carries in its markup. */
  const BR: string := "<br>"

  /** One value of `Math.random()`. */
  predicate Unit(r: real)
  {
    0.0 <= r < 1.0
  }

  /** A source of `Math.random()` values, indexed by draw: every draw lies in
      [0, 1). Nothing is assumed about how the draws are distributed. */
  ghost predicate InUnit(o: nat -> real)
  {
    forall i: nat :: Unit(o(i))
  }

  /** `randomChar`: `CHARS[Math.floor(r * CHARS.length)]`. */
  function RandomChar(r: real): (c: char)
    requires Unit(r)
    ensures c in CHARS
  {
    CHARS[(r * (|CHARS| as real)).Floor]
  }

  /** Every glyph of the alphabet can come out of `randomChar`. */
  lemma RandomCharCovers(k: nat)
    requires k < |CHARS|
    ensures RandomChar(k as real / |CHARS| as real) == CHARS[k]
  {
    assert (k as real / |CHARS| as real) * (|CHARS| as real) == k as real;
  }

  /** `Math.floor(Math.random() * 10)`: the extra frames an entry scrambles for. */
  function Jitter(r: real): (d: nat)
    requires Unit(r)
    ensures d <= 9
  {
    (r * 10.0).Floor
  }

  function Max(a: nat, b: nat): nat
  {
    if a < b then b else a
  }

  predicate BlankChar(c: char)
  {
    c == ' ' || c == '\n'
  }

  /** A one-character string holding a space or a line feed: the characters
      the effect never randomises. */
  predicate Blank(s: string)
  {
    |s| == 1 && BlankChar(s[0])
  }

  /** `s[i] || ''`: the character at `i`, or the empty string past the end. */
  function At(s: string, i: nat): (r: string)
    ensures |r| <= 1
    ensures i < |s| <==> r != []
  {
    if i < |s| then [s[i]] else []
  }

  /** One character's transition: what it showed before, what it will show,
      the frames its scrambling window opens and closes, and the glyph it
      flickers with (empty until one is drawn). */
  datatype Entry = Entry(from: string, to: string, start: nat, end: nat, glyph: string)

  /** The draws one entry may consume in one frame: the flicker test
      `Math.random() < 0.28` and the pick of `randomChar`. */
  datatype Roll = Roll(flicker: real, pick: real)

  ghost predicate UnitRolls(rolls: nat -> Roll)
  {
    forall i: nat :: Unit(rolls(i).flicker) && Unit(rolls(i).pick)
  }

  /** A glyph drawn so far: none yet, or one character of the alphabet. */
  predicate GlyphOk(g: string)
  {
    g == [] || (|g| == 1 && g[0] in CHARS)
  }

  /** Every glyph a queue carries is none yet or one character of the alphabet. */
  predicate GlyphsOk(q: seq<Entry>)
  {
    forall i :: 0 <= i < |q| ==> GlyphOk(q[i].glyph)
  }

  /** Entry `i` of the schedule from `current` to `target`: the characters at
      `i` (or empty), a window opening at frame `2i` and lasting 10 to 19 frames. */
  predicate ScheduledAt(e: Entry, i: nat, current: string, target: string)
  {
    && e.from == At(current, i)
    && e.to == At(target, i)
    && e.start == 2 * i
    && e.start + 10 <= e.end <= e.start + 19
  }

  /** A whole schedule from `current` to `target`, glyphs aside. */
  predicate Schedule(q: seq<Entry>, current: string, target: string)
  {
    && |q| == Max(|current|, |target|)
    && forall i :: 0 <= i < |q| ==> ScheduledAt(q[i], i, current, target)
  }

  /** `b` is `a` with glyphs possibly re-drawn: same characters, same frames. */
  predicate SameSchedule(a: seq<Entry>, b: seq<Entry>)
  {
    |a| == |b| && forall i :: 0 <= i < |a| ==> b[i] == a[i].(glyph := b[i].glyph)
  }

  /** `animateTo`: one entry per position of the longer of the two texts. */
  method AnimateTo(current: string, target: string, jitter: nat -> real) returns (queue: seq<Entry>)
    requires InUnit(jitter)
    ensures Schedule(queue, current, target)
    ensures forall i :: 0 <= i < |queue| ==> queue[i].glyph == [] && queue[i].end == 2 * i + 10 + Jitter(jitter(i))
  {
    var length := Max(|current|, |target|);
    queue := [];
    var i := 0;
    while i < length
      invariant 0 <= i <= length
      invariant |queue| == i
      invariant forall j :: 0 <= j < i ==> ScheduledAt(queue[j], j, current, target)
      invariant forall j :: 0 <= j < i ==> queue[j].glyph == [] && queue[j].end == 2 * j + 10 + Jitter(jitter(j))
    {
      var start := 2 * i;
      var end := start + 10 + Jitter(jitter(i));
      queue := queue + [Entry(At(current, i), At(target, i), start, end, [])];
      i := i + 1;
    }
  }

  /** What one entry contributes at one frame, and the entry afterwards. */
  datatype Cell = Cell(piece: string, entry: Entry)

  /** The body of `update`'s loop for one entry at `frame`. */
  function Show(e: Entry, frame: nat, roll: Roll): (c: Cell)
    requires Unit(roll.flicker) && Unit(roll.pick)
    ensures c.entry == e.(glyph := c.entry.glyph)
    ensures frame >= e.end ==> c.piece == e.to
    ensures frame < e.start && frame < e.end ==> c.piece == e.from
    ensures e.start <= frame < e.end && Blank(e.to) ==> c.piece == e.to
    ensures e.start <= frame < e.end && !Blank(e.to) ==>
              c.piece == c.entry.glyph != [] && (GlyphOk(e.glyph) ==> |c.piece| == 1 && c.piece[0] in CHARS)
    ensures !(e.start <= frame < e.end && !Blank(e.to)) ==> c.entry == e
    ensures e.glyph != [] && roll.flicker >= FLICKER ==> c.entry == e
    ensures e.start <= frame < e.end && !Blank(e.to) && (e.glyph == [] || roll.flicker < FLICKER) ==>
              c.entry.glyph == [RandomChar(roll.pick)]
    ensures GlyphOk(e.glyph) ==> GlyphOk(c.entry.glyph)
  {
    if frame >= e.end then Cell(e.to, e)
    else if frame >= e.start then
      if !Blank(e.to) then
        var g := if e.glyph == [] || roll.flicker < FLICKER then [RandomChar(roll.pick)] else e.glyph;
        Cell(g, e.(glyph := g))
      else Cell(e.to, e)
    else Cell(e.from, e)
  }

  /** Showing the same frame again with the same draws shows the same thing. */
  lemma ShowStable(e: Entry, frame: nat, roll: Roll)
    requires Unit(roll.flicker) && Unit(roll.pick)
    ensures Show(Show(e, frame, roll).entry, frame, roll) == Show(e, frame, roll)
  {
  }

  /** The string `update` writes at `frame`: the pieces of the entries in order,
      entry `i` using draw `rolls(i)`. */
  function Render(q: seq<Entry>, frame: nat, rolls: nat -> Roll): string
    requires UnitRolls(rolls)
    decreases |q|
  {
    if q == [] then []
    else Render(q[..|q| - 1], frame, rolls) + Show(q[|q| - 1], frame, rolls(|q| - 1)).piece
  }

  /** The text a schedule ends on: its `to` values in order. */
  function Targets(q: seq<Entry>): string
    decreases |q|
  {
    if q == [] then [] else Targets(q[..|q| - 1]) + q[|q| - 1].to
  }

  /** The text a schedule starts from: its `from` values in order. */
  function Sources(q: seq<Entry>): string
    decreases |q|
  {
    if q == [] then [] else Sources(q[..|q| - 1]) + q[|q| - 1].from
  }

  /** The last frame any entry of the schedule is still scrambling before. */
  function LastEnd(q: seq<Entry>): (m: nat)
    ensures forall i :: 0 <= i < |q| ==> q[i].end <= m
    ensures q != [] ==> exists i :: 0 <= i < |q| && q[i].end == m
    decreases |q|
  {
    if q == [] then 0
    else
      var m := LastEnd(q[..|q| - 1]);
      assert forall i :: 0 <= i < |q| - 1 ==> q[..|q| - 1][i] == q[i];
      if m < q[|q| - 1].end then q[|q| - 1].end else m
  }

  /** The first `n` entries have all reached their end by `frame`. */
  predicate Settled(q: seq<Entry>, frame: nat, n: nat)
    requires n <= |q|
  {
    forall j :: 0 <= j < n ==> frame >= q[j].end
  }

  /** `update`: renders every entry at `frame`, re-drawing flickering glyphs,
      and asks for another frame exactly when some entry has not reached its end. */
  method Update(queue: seq<Entry>, frame: nat, rolls: nat -> Roll) returns (output: string, next: seq<Entry>, again: bool)
    requires UnitRolls(rolls)
    ensures output == Render(queue, frame, rolls)
    ensures |next| == |queue|
    ensures forall i :: 0 <= i < |queue| ==> next[i] == Show(queue[i], frame, rolls(i)).entry
    ensures again <==> exists i :: 0 <= i < |queue| && frame < queue[i].end
  {
    output := [];
    next := queue;
    var complete := 0;
    var i := 0;
    while i < |queue|
      invariant 0 <= complete <= i <= |queue|
      invariant |next| == |queue|
      invariant output == Render(queue[..i], frame, rolls)
      invariant forall j :: 0 <= j < i ==> next[j] == Show(queue[j], frame, rolls(j)).entry
      invariant complete == i <==> Settled(queue, frame, i)
    {
      var c := Show(queue[i], frame, rolls(i));
      if frame >= queue[i].end {
        complete := complete + 1;
      }
      RenderSnoc(queue, frame, rolls, i);
      output := output + c.piece;
      next := next[i := c.entry];
      i := i + 1;
    }
    assert queue[..|queue|] == queue;
    again := complete < |queue|;
    assert !again <==> Settled(queue, frame, |queue|);
  }

  /** Rendering one more entry appends that entry's piece. */
  lemma RenderSnoc(q: seq<Entry>, frame: nat, rolls: nat -> Roll, i: nat)
    requires UnitRolls(rolls) && i < |q|
    ensures Render(q[..i + 1], frame, rolls) == Render(q[..i], frame, rolls) + Show(q[i], frame, rolls(i)).piece
  {
    assert q[..i + 1][..i] == q[..i];
  }

  /** Once every entry has reached its end, the rendering is the schedule's target text. */
  lemma {:induction false} SettledRendersTargets(q: seq<Entry>, frame: nat, rolls: nat -> Roll)
    requires UnitRolls(rolls)
    requires Settled(q, frame, |q|)
    ensures Render(q, frame, rolls) == Targets(q)
    decreases |q|
  {
    if q != [] {
      SettledRendersTargets(q[..|q| - 1], frame, rolls);
    }
  }

  /** Rendering does not look at glyphs that the frame will re-draw or not use:
      a queue that `update` produced renders the same frame identically. */
  lemma {:induction false} RenderStable(q: seq<Entry>, next: seq<Entry>, frame: nat, rolls: nat -> Roll)
    requires UnitRolls(rolls)
    requires |next| == |q|
    requires forall i :: 0 <= i < |q| ==> next[i] == Show(q[i], frame, rolls(i)).entry
    ensures Render(next, frame, rolls) == Render(q, frame, rolls)
    decreases |q|
  {
    if q != [] {
      var k := |q| - 1;
      ShowStable(q[k], frame, rolls(k));
      RenderStable(q[..k], next[..k], frame, rolls);
    }
  }

  /** Re-drawing glyphs keeps a schedule a schedule between the same texts. */
  lemma SameScheduleSchedule(a: seq<Entry>, b: seq<Entry>, current: string, target: string)
    requires Schedule(a, current, target) && SameSchedule(a, b)
    ensures Schedule(b, current, target)
  {
    forall i | 0 <= i < |b|
      ensures ScheduledAt(b[i], i, current, target)
    {
      assert ScheduledAt(a[i], i, current, target);
    }
  }

  /** Re-drawing glyphs changes neither the start nor the end text of a schedule,
      nor its last frame. */
  lemma {:induction false} SameScheduleKeeps(a: seq<Entry>, b: seq<Entry>)
    requires SameSchedule(a, b)
    ensures Targets(b) == Targets(a)
    ensures Sources(b) == Sources(a)
    ensures LastEnd(b) == LastEnd(a)
    decreases |a|
  {
    if a != [] {
      var k := |a| - 1;
      assert SameSchedule(a[..k], b[..k]);
      SameScheduleKeeps(a[..k], b[..k]);
    }
  }

  function Min(a: nat, b: nat): nat
  {
    if a < b then a else b
  }

  /** Extending a prefix by one position appends the character there, if any. */
  lemma AtPrefix(s: string, i: nat)
    ensures s[..Min(i + 1, |s|)] == s[..Min(i, |s|)] + At(s, i)
  {
    if i < |s| {
      assert s[..i + 1] == s[..i] + [s[i]];
    }
  }

  /** The first `k` entries of a queue whose entry `i` goes to `target[i]`
      (or nothing) spell the first `k` characters of `target`. */
  lemma {:induction false} TargetsPrefix(q: seq<Entry>, target: string, k: nat)
    requires k <= |q|
    requires forall i :: 0 <= i < |q| ==> q[i].to == At(target, i)
    ensures Targets(q[..k]) == target[..Min(k, |target|)]
  {
    if k > 0 {
      TargetsPrefix(q, target, k - 1);
      assert q[..k][..k - 1] == q[..k - 1];
      assert Targets(q[..k]) == Targets(q[..k - 1]) + q[k - 1].to;
      AtPrefix(target, k - 1);
    }
  }

  /** The first `k` entries of a queue whose entry `i` comes from `current[i]`
      (or nothing) spell the first `k` characters of `current`. */
  lemma {:induction false} SourcesPrefix(q: seq<Entry>, current: string, k: nat)
    requires k <= |q|
    requires forall i :: 0 <= i < |q| ==> q[i].from == At(current, i)
    ensures Sources(q[..k]) == current[..Min(k, |current|)]
  {
    if k > 0 {
      SourcesPrefix(q, current, k - 1);
      assert q[..k][..k - 1] == q[..k - 1];
      assert Sources(q[..k]) == Sources(q[..k - 1]) + q[k - 1].from;
      AtPrefix(current, k - 1);
    }
  }

  /** A schedule from `current` to `target` starts on `current` and spells
      `target` once settled. */
  lemma ScheduleSpans(q: seq<Entry>, current: string, target: string)
    requires Schedule(q, current, target)
    ensures Targets(q) == target
    ensures Sources(q) == current
  {
    assert forall i :: 0 <= i < |q| ==> ScheduledAt(q[i], i, current, target);
    TargetsPrefix(q, target, |q|);
    SourcesPrefix(q, current, |q|);
    assert q[..|q|] == q;
  }

  /** A schedule of `n` entries has settled by frame `2n + 17`, whatever the draws:
      from then on every frame renders the target text. */
  lemma RevealFinishes(q: seq<Entry>, current: string, target: string, frame: nat, rolls: nat -> Roll)
    requires Schedule(q, current, target)
    requires UnitRolls(rolls)
    requires frame >= 2 * |q| + 17
    ensures LastEnd(q) <= 2 * |q| + 17
    ensures Render(q, frame, rolls) == target
  {
    assert forall i :: 0 <= i < |q| ==> ScheduledAt(q[i], i, current, target);
    SettledRendersTargets(q, frame, rolls);
    ScheduleSpans(q, current, target);
  }

  /** A heading reading "HELLO" starts as five glyphs of the alphabet. */
  lemma HelloStartsScrambled(picks: nat -> real)
    requires InUnit(picks)
    ensures var shown := TextContent(Init("HELLO", "HELLO", picks).view);
            |shown| == 5 && forall i :: 0 <= i < 5 ==> shown[i] in CHARS
  {
    NoBreak("HELLO");
  }

  /** Any transition to "HELLO" shows "HELLO" from frame 27 on. */
  lemma HelloSettles(q: seq<Entry>, current: string, frame: nat, rolls: nat -> Roll)
    requires UnitRolls(rolls)
    requires Schedule(q, current, "HELLO") && |current| <= 5
    requires frame >= 27
    ensures Render(q, frame, rolls) == "HELLO"
  {
    RevealFinishes(q, current, "HELLO", frame, rolls);
  }

  /** Markup without a `<` holds no `<br>`. */
  lemma NoBreak(s: string)
    requires '<' !in s
    ensures !Includes(s, BR)
  {
    forall i: nat | i <= |s|
      ensures !MatchAt(s, BR, i)
    {
      if i + |BR| <= |s| {
        assert s[i..i + |BR|][0] == s[i];
      }
    }
  }

  /** What the element holds: plain text, or markup with one `<br>` between two texts. */
  datatype View = Text(content: string) | Markup(before: string, after: string)

  /** The element's `textContent`: the `<br>` contributes no text. */
  function TextContent(v: View): string
  {
    match v
    case Text(t) => t
    case Markup(b, a) => b + a
  }

  /** `updateText`: writes `text`, re-inserting the hero heading's `<br>`. The
      break goes where the original text has its first line feed, and the
      character of `text` at that position is dropped; without a line feed, it
      goes where the original markup has its only `<br>`, and nothing is dropped. */
  function UpdateText(html: string, original: string, text: string): (v: View)
    ensures !Includes(html, BR) ==> v == Text(text)
    ensures Includes(html, BR) && '\n' in original ==>
              var k := IndexOf(original, '\n');
              && original[k] == '\n' && '\n' !in original[..k]
              && v == Markup(text[..Min(k, |text|)], text[Min(k + 1, |text|)..])
    ensures Includes(html, BR) && '\n' !in original && |Split(html, BR)| == 2 ==>
              var f := |Split(html, BR)[0]|;
              && MatchAt(html, BR, f) && !Includes(html[..f], BR)
              && v == Markup(text[..Min(f, |text|)], text[Min(f, |text|)..])
    ensures Includes(html, BR) && '\n' !in original && |Split(html, BR)| != 2 ==> v == Text(text)
    ensures var k := IndexOf(original, '\n');
            if Includes(html, BR) && 0 <= k < |text| then TextContent(v) == text[..k] + text[k + 1..]
            else TextContent(v) == text
  {
    if Includes(html, BR) then
      var brIndex := IndexOf(original, '\n');
      if brIndex != -1 then
        CutAround(text, brIndex);
        Markup(Substring(text, 0, brIndex), Substring(text, brIndex + 1, |text|))
      else
        var parts := Split(html, BR);
        if |parts| == 2 then
          var firstLen := |parts[0]|;
          SplitHead(html, BR);
          CutAt(text, firstLen);
          Markup(Substring(text, 0, firstLen), Substring(text, firstLen, |text|))
        else Text(text)
    else Text(text)
  }

  /** Cutting `text` at `k` with `substring` loses nothing. */
  lemma CutAt(text: string, k: nat)
    ensures Substring(text, 0, k) == text[..Min(k, |text|)]
    ensures Substring(text, k, |text|) == text[Min(k, |text|)..]
    ensures Substring(text, 0, k) + Substring(text, k, |text|) == text
  {
    assert text == text[..Min(k, |text|)] + text[Min(k, |text|)..];
  }

  /** Cutting `text` around position `k` with `substring` loses exactly the
      character at `k`, when there is one. */
  lemma CutAround(text: string, k: nat)
    ensures Substring(text, 0, k) == text[..Min(k, |text|)]
    ensures Substring(text, k + 1, |text|) == text[Min(k + 1, |text|)..]
    ensures k < |text| ==> Substring(text, 0, k) + Substring(text, k + 1, |text|) == text[..k] + text[k + 1..]
    ensures |text| <= k ==> Substring(text, 0, k) + Substring(text, k + 1, |text|) == text
  {
  }

  /** `shown` is a scrambled rendering of `text`: same length, spaces and line
      feeds in place, every other position a glyph of the alphabet. */
  predicate ScrambleOf(text: string, shown: string)
  {
    && |shown| == |text|
    && forall i :: 0 <= i < |text| ==> if BlankChar(text[i]) then shown[i] == text[i] else shown[i] in CHARS
  }

  /** The string `setScrambled` builds: position `i` draws `picks(i)` unless it is blank. */
  function Scrambled(text: string, picks: nat -> real): (r: string)
    requires InUnit(picks)
    ensures ScrambleOf(text, r)
    decreases |text|
  {
    if text == [] then []
    else
      var k := |text| - 1;
      var c := if BlankChar(text[k]) then text[k] else RandomChar(picks(k));
      Scrambled(text[..k], picks) + [c]
  }

  /** `v` is what `updateText` writes for some scrambled rendering of `text`. */
  ghost predicate ShowsScramble(html: string, text: string, v: View)
  {
    exists sc :: ScrambleOf(text, sc) && v == UpdateText(html, text, sc)
  }

  /** One watched heading: its original markup and text, what it shows, the
      current schedule and frame, whether it is revealed, and whether a frame
      callback is pending. */
  datatype Scrambler = Scrambler(
    html: string,
    text: string,
    view: View,
    queue: seq<Entry>,
    frame: nat,
    revealed: bool,
    pending: bool)

  /** A pending frame callback always has an entry left to settle. */
  predicate Live(s: Scrambler)
  {
    s.pending ==> exists i :: 0 <= i < |s.queue| && s.frame < s.queue[i].end
  }

  /** The states `reveal`, `scramble` and the frame callback keep a heading in.
      Hidden, it shows a scramble of its text and no frame is pending. Revealed,
      its schedule ends on its text and carries only glyphs of the alphabet, and
      once no frame is pending it shows its text. */
  ghost predicate Coherent(s: Scrambler)
  {
    && Live(s)
    && (!s.revealed ==> !s.pending && ShowsScramble(s.html, s.text, s.view))
    && (s.revealed ==> Targets(s.queue) == s.text && GlyphsOk(s.queue))
    && (s.revealed && !s.pending ==> s.view == UpdateText(s.html, s.text, s.text))
  }

  /** The constructor followed by `setScrambled`: the heading starts scrambled,
      with nothing scheduled. */
  function Init(html: string, text: string, picks: nat -> real): (s: Scrambler)
    requires InUnit(picks)
    ensures s.html == html && s.text == text
    ensures !s.revealed && !s.pending && s.queue == [] && Live(s)
    ensures ShowsScramble(html, text, s.view)
    ensures !Includes(html, BR) ==> ScrambleOf(text, TextContent(s.view))
    ensures Coherent(s)
  {
    var sc := Scrambled(text, picks);
    assert ScrambleOf(text, sc);
    Scrambler(html, text, UpdateText(html, text, sc), [], 0, false, false)
  }

  /** `scramble`: nothing when not revealed; otherwise un-reveal, cancel the
      pending frame and show a fresh scramble of the original text at once. */
  function Scramble(s: Scrambler, picks: nat -> real): (r: Scrambler)
    requires InUnit(picks)
    ensures !s.revealed ==> r == s
    ensures s.revealed ==> !r.revealed && !r.pending && Live(r)
    ensures s.revealed ==> r == s.(view := r.view, revealed := false, pending := false)
    ensures s.revealed ==> ShowsScramble(s.html, s.text, r.view)
    ensures s.revealed && !Includes(s.html, BR) ==> ScrambleOf(s.text, TextContent(r.view))
    ensures s.revealed || Coherent(s) ==> Coherent(r)
  {
    if !s.revealed then s
    else
      var sc := Scrambled(s.text, picks);
      assert ScrambleOf(s.text, sc);
      s.(revealed := false, pending := false, view := UpdateText(s.html, s.text, sc))
  }

  /** `reveal`: nothing when already revealed; otherwise mark revealed, cancel
      the pending frame, schedule the transition from what is displayed to the
      original text, and render frame 0. */
  method Reveal(s: Scrambler, jitter: nat -> real, rolls: nat -> Roll) returns (r: Scrambler)
    requires InUnit(jitter) && UnitRolls(rolls)
    ensures s.revealed ==> r == s
    ensures !s.revealed ==> r.revealed && r.frame == 0 && r.html == s.html && r.text == s.text
    ensures !s.revealed ==> Schedule(r.queue, TextContent(s.view), s.text)
    ensures !s.revealed ==> r.view == UpdateText(s.html, s.text, Render(r.queue, 0, rolls))
    ensures !s.revealed ==> (r.pending <==> r.queue != []) && Live(r)
    ensures !s.revealed ==> forall i :: 0 <= i < |r.queue| ==> r.queue[i] == Show(r.queue[i].(glyph := []), 0, rolls(i)).entry
    ensures !s.revealed ==> GlyphsOk(r.queue)
    ensures !s.revealed || Coherent(s) ==> Coherent(r)
  {
    if s.revealed {
      return s;
    }
    var queue := AnimateTo(TextContent(s.view), s.text, jitter);
    var output, next, again := Update(queue, 0, rolls);
    RenderStable(queue, next, 0, rolls);
    assert SameSchedule(queue, next);
    SameScheduleSchedule(queue, next, TextContent(s.view), s.text);
    if queue != [] {
      assert ScheduledAt(next[0], 0, TextContent(s.view), s.text);
      assert 0 < queue[0].end;
    }
    r := s.(revealed := true, queue := next, frame := 0, view := UpdateText(s.html, s.text, output), pending := again);
    FreshDraws(queue, next, rolls);
    RevealCoherent(s, r, rolls);
  }

  /** Frame 0 of a queue without glyphs: each entry is a glyph-less entry as
      `Show` leaves it at frame 0. */
  lemma FreshDraws(queue: seq<Entry>, next: seq<Entry>, rolls: nat -> Roll)
    requires UnitRolls(rolls) && |next| == |queue|
    requires forall i :: 0 <= i < |queue| ==> queue[i].glyph == []
    requires forall i :: 0 <= i < |queue| ==> next[i] == Show(queue[i], 0, rolls(i)).entry
    ensures forall i :: 0 <= i < |next| ==> next[i] == Show(next[i].(glyph := []), 0, rolls(i)).entry
  {
    forall i | 0 <= i < |next|
      ensures next[i] == Show(next[i].(glyph := []), 0, rolls(i)).entry
    {
      assert next[i].(glyph := []) == queue[i];
    }
  }

  /** A freshly revealed heading is coherent: its schedule ends on its text,
      frame 0 drew only glyphs of the alphabet, and an empty schedule means an
      empty text, already shown. */
  lemma RevealCoherent(s: Scrambler, r: Scrambler, rolls: nat -> Roll)
    requires UnitRolls(rolls) && RevealedFrom(s, r, rolls)
    ensures GlyphsOk(r.queue) && Coherent(r)
  {
    ScheduleSpans(r.queue, TextContent(s.view), s.text);
    forall i | 0 <= i < |r.queue|
      ensures GlyphOk(r.queue[i].glyph)
    {
      assert GlyphOk(r.queue[i].(glyph := []).glyph);
    }
    if r.queue != [] {
      assert ScheduledAt(r.queue[0], 0, TextContent(s.view), s.text);
    }
  }

  /** The frame callback: advance one frame and `update`; nothing is pending
      after the frame at which every entry has reached its end. */
  method Tick(s: Scrambler, rolls: nat -> Roll) returns (r: Scrambler)
    requires UnitRolls(rolls)
    ensures !s.pending ==> r == s
    ensures s.pending ==> r.frame == s.frame + 1 && SameSchedule(s.queue, r.queue)
    ensures s.pending ==> r.html == s.html && r.text == s.text && r.revealed == s.revealed
    ensures s.pending ==> r.view == UpdateText(s.html, s.text, Render(s.queue, r.frame, rolls))
    ensures s.pending ==> (r.pending <==> exists i :: 0 <= i < |s.queue| && r.frame < s.queue[i].end)
    ensures s.pending ==> forall i :: 0 <= i < |s.queue| ==> r.queue[i] == Show(s.queue[i], r.frame, rolls(i)).entry
    ensures GlyphsOk(s.queue) ==> GlyphsOk(r.queue)
    ensures Live(r)
    ensures Coherent(s) ==> Coherent(r)
  {
    if !s.pending {
      return s;
    }
    var output, next, again := Update(s.queue, s.frame + 1, rolls);
    r := s.(frame := s.frame + 1, queue := next, view := UpdateText(s.html, s.text, output), pending := again);
    assert SameSchedule(s.queue, r.queue);
    if again {
      var i :| 0 <= i < |s.queue| && r.frame < s.queue[i].end;
      assert r.frame < r.queue[i].end;
    }
    TickCoherent(s, r, rolls);
  }

  /** A frame callback keeps a heading coherent: re-drawn glyphs stay in the
      alphabet, the schedule still ends on the text, and the frame that leaves
      nothing pending renders that text. */
  lemma TickCoherent(s: Scrambler, r: Scrambler, rolls: nat -> Roll)
    requires UnitRolls(rolls) && s.pending
    requires r.frame == s.frame + 1 && |r.queue| == |s.queue|
    requires forall i :: 0 <= i < |s.queue| ==> r.queue[i] == Show(s.queue[i], r.frame, rolls(i)).entry
    requires r.html == s.html && r.text == s.text && r.revealed == s.revealed
    requires r.view == UpdateText(s.html, s.text, Render(s.queue, r.frame, rolls))
    requires r.pending <==> exists i :: 0 <= i < |s.queue| && r.frame < s.queue[i].end
    requires Live(r)
    ensures Coherent(s) ==> Coherent(r)
  {
    assert SameSchedule(s.queue, r.queue);
    SameScheduleKeeps(s.queue, r.queue);
    if !r.pending {
      SettledRendersTargets(s.queue, r.frame, rolls);
    }
  }

  /** One frame callback inside `Settle`: the schedule is kept, the frame moves
      one step closer to the last end frame, and when nothing is pending any
      more the target text is displayed. */
  lemma SettleStep(s: Scrambler, prev: Scrambler, r: Scrambler, rolls: nat -> Roll)
    requires UnitRolls(rolls)
    requires SameSchedule(s.queue, prev.queue) && Live(prev) && prev.pending
    requires SameSchedule(prev.queue, r.queue) && r.frame == prev.frame + 1
    requires r.view == UpdateText(s.html, s.text, Render(prev.queue, r.frame, rolls))
    requires r.pending <==> exists i :: 0 <= i < |prev.queue| && r.frame < prev.queue[i].end
    ensures SameSchedule(s.queue, r.queue) && r.frame <= LastEnd(s.queue)
    ensures LastEnd(r.queue) == LastEnd(s.queue)
    ensures !r.pending ==> r.frame == LastEnd(s.queue)
    ensures !r.pending ==> r.view == UpdateText(s.html, s.text, Targets(s.queue))
  {
    SameScheduleKeeps(s.queue, prev.queue);
    SameScheduleKeeps(prev.queue, r.queue);
    var i :| 0 <= i < |prev.queue| && prev.frame < prev.queue[i].end;
    assert SameSchedule(s.queue, r.queue);
    if !r.pending {
      SettledRendersTargets(prev.queue, r.frame, rolls);
      if s.queue != [] {
        var j :| 0 <= j < |s.queue| && s.queue[j].end == LastEnd(s.queue);
        assert prev.queue[j].end == s.queue[j].end;
      }
    }
  }

  /** Runs frame callbacks until none is pending, frame `f` using draws
      `rolls(f)`. The animation stops exactly at the schedule's last end frame,
      showing the schedule's target text. */
  method Settle(s: Scrambler, rolls: nat -> nat -> Roll) returns (r: Scrambler)
    requires Live(s)
    requires forall f: nat :: UnitRolls(rolls(f))
    ensures !r.pending && Live(r)
    ensures !s.pending ==> r == s
    ensures s.pending ==> r.frame == LastEnd(s.queue) && SameSchedule(s.queue, r.queue)
    ensures s.pending ==> r.view == UpdateText(s.html, s.text, Targets(s.queue))
    ensures r.html == s.html && r.text == s.text && r.revealed == s.revealed
    ensures GlyphsOk(s.queue) ==> GlyphsOk(r.queue)
    ensures Coherent(s) ==> Coherent(r)
  {
    r := s;
    while r.pending
      invariant Live(r)
      invariant GlyphsOk(s.queue) ==> GlyphsOk(r.queue)
      invariant Coherent(s) ==> Coherent(r)
      invariant r.html == s.html && r.text == s.text && r.revealed == s.revealed
      invariant !s.pending ==> r == s
      invariant s.pending ==> SameSchedule(s.queue, r.queue) && r.frame <= LastEnd(s.queue)
      invariant s.pending ==> LastEnd(r.queue) == LastEnd(s.queue)
      invariant s.pending && !r.pending ==> r.frame == LastEnd(s.queue)
      invariant s.pending && !r.pending ==> r.view == UpdateText(s.html, s.text, Targets(s.queue))
      decreases LastEnd(r.queue) - r.frame
    {
      var prev := r;
      r := Tick(prev, rolls(prev.frame + 1));
      SettleStep(s, prev, r, rolls(prev.frame + 1));
    }
  }

  /** A hidden heading that is revealed and left to animate ends revealed, with
      nothing pending, showing its original text with the `<br>` re-inserted. */
  method RevealSettles(s: Scrambler, jitter: nat -> real, rolls: nat -> Roll, frames: nat -> nat -> Roll) returns (r: Scrambler)
    requires !s.revealed
    requires InUnit(jitter) && UnitRolls(rolls)
    requires forall f: nat :: UnitRolls(frames(f))
    ensures r.revealed && !r.pending
    ensures r.html == s.html && r.text == s.text
    ensures r.view == UpdateText(s.html, s.text, s.text)
  {
    var a := Reveal(s, jitter, rolls);
    ScheduleSpans(a.queue, TextContent(s.view), s.text);
    if a.queue == [] {
      assert Render(a.queue, 0, rolls) == [] == s.text;
    }
    r := Settle(a, frames);
  }

  /** The draws one visibility change may consume. */
  datatype Draws = Draws(jitter: nat -> real, rolls: nat -> Roll, picks: nat -> real)

  ghost predicate ValidDraws(l: Draws)
  {
    InUnit(l.jitter) && UnitRolls(l.rolls) && InUnit(l.picks)
  }

  /** `r` is what `reveal` makes of the hidden heading `s` with draws `rolls`:
      revealed at frame 0 with markup and text kept, scheduled from what `s`
      displays to its text, frame 0's glyphs freshly drawn and frame 0 shown,
      and a frame pending exactly when there is an entry. */
  predicate RevealedFrom(s: Scrambler, r: Scrambler, rolls: nat -> Roll)
    requires UnitRolls(rolls)
  {
    && r.revealed && r.frame == 0 && r.html == s.html && r.text == s.text
    && Schedule(r.queue, TextContent(s.view), s.text)
    && (forall i :: 0 <= i < |r.queue| ==> r.queue[i] == Show(r.queue[i].(glyph := []), 0, rolls(i)).entry)
    && r.view == UpdateText(s.html, s.text, Render(r.queue, 0, rolls))
    && (r.pending <==> r.queue != [])
  }

  /** The per-entry rule of `handleIntersection`: entering the viewport reveals,
      leaving it in any direction scrambles. A change that agrees with the
      current state does nothing; any other one flips it. */
  method OnVisibility(s: Scrambler, intersecting: bool, draws: Draws) returns (r: Scrambler)
    requires ValidDraws(draws)
    ensures r.revealed == intersecting
    ensures intersecting == s.revealed ==> r == s
    ensures r.html == s.html && r.text == s.text
    ensures Live(s) ==> Live(r)
    ensures intersecting && !s.revealed ==> RevealedFrom(s, r, draws.rolls)
    ensures !intersecting ==> r == Scramble(s, draws.picks)
    ensures Coherent(s) ==> Coherent(r)
  {
    if intersecting {
      r := Reveal(s, draws.jitter, draws.rolls);
    } else {
      r := Scramble(s, draws.picks);
    }
  }

  /** One `IntersectionObserver` entry: which element, whether it intersects,
      and the draws its handling consumes. */
  datatype Observation = Observation(target: nat, intersecting: bool, draws: Draws)

  /** No entry strictly between positions `k` and `n` concerns element `id`. */
  predicate Untouched(entries: seq<Observation>, k: int, n: nat, id: nat)
    requires n <= |entries|
  {
    forall j :: k < j < n && 0 <= j ==> entries[j].target != id
  }

  /** One entry of `handleIntersection`: an element without a scrambler is
      skipped, otherwise its scrambler follows the visibility rule. */
  method Observe(m: map<nat, Scrambler>, e: Observation) returns (r: map<nat, Scrambler>)
    requires ValidDraws(e.draws)
    ensures r.Keys == m.Keys
    ensures forall id :: id in m && id != e.target ==> r[id] == m[id]
    ensures e.target in m ==> r[e.target].revealed == e.intersecting
    ensures e.target in m && e.intersecting == m[e.target].revealed ==> r == m
    ensures forall id :: id in m ==> r[id].html == m[id].html && r[id].text == m[id].text
    ensures e.target in m && e.intersecting && !m[e.target].revealed ==> RevealedFrom(m[e.target], r[e.target], e.draws.rolls)
    ensures e.target in m && !e.intersecting ==> r[e.target] == Scramble(m[e.target], e.draws.picks)
    ensures forall id :: id in m && Coherent(m[id]) ==> Coherent(r[id])
  {
    r := m;
    if e.target in m {
      var s := OnVisibility(m[e.target], e.intersecting, e.draws);
      r := m[e.target := s];
    }
  }

  /** After the first `n` entries: the same elements, untouched elements
      unchanged, each element touched so far in the state its last entry so far
      asks for, and markup and text kept everywhere. */
  predicate Handled(m: map<nat, Scrambler>, r: map<nat, Scrambler>, entries: seq<Observation>, n: nat)
    requires n <= |entries|
  {
    && r.Keys == m.Keys
    && (forall id :: id in m && Untouched(entries, -1, n, id) ==> r[id] == m[id])
    && (forall k :: 0 <= k < n && entries[k].target in m && Untouched(entries, k, n, entries[k].target) ==>
          r[entries[k].target].revealed == entries[k].intersecting)
    && (forall id :: id in m ==> r[id].html == m[id].html && r[id].text == m[id].text)
  }

  /** Handling entry `n` as `Observe` does extends `Handled` by one entry. */
  lemma HandledStep(m: map<nat, Scrambler>, r: map<nat, Scrambler>, r': map<nat, Scrambler>, entries: seq<Observation>, n: nat)
    requires n < |entries| && Handled(m, r, entries, n)
    requires r'.Keys == r.Keys
    requires forall id :: id in r && id != entries[n].target ==> r'[id] == r[id]
    requires entries[n].target in r ==> r'[entries[n].target].revealed == entries[n].intersecting
    requires forall id :: id in r ==> r'[id].html == r[id].html && r'[id].text == r[id].text
    ensures Handled(m, r', entries, n + 1)
  {
    StillUntouched(m, r, r', entries, n);
    LastWins(m, r, r', entries, n);
  }

  /** Elements no entry up to `n` names keep their original scrambler. */
  lemma StillUntouched(m: map<nat, Scrambler>, r: map<nat, Scrambler>, r': map<nat, Scrambler>, entries: seq<Observation>, n: nat)
    requires n < |entries| && r.Keys == m.Keys && r'.Keys == r.Keys
    requires forall id :: id in m && Untouched(entries, -1, n, id) ==> r[id] == m[id]
    requires forall id :: id in r && id != entries[n].target ==> r'[id] == r[id]
    ensures forall id :: id in m && Untouched(entries, -1, n + 1, id) ==> r'[id] == m[id]
  {
    forall id | id in m && Untouched(entries, -1, n + 1, id)
      ensures r'[id] == m[id]
    {
      assert Untouched(entries, -1, n, id);
    }
  }

  /** Each element named up to `n` is in the state of its last entry so far. */
  lemma LastWins(m: map<nat, Scrambler>, r: map<nat, Scrambler>, r': map<nat, Scrambler>, entries: seq<Observation>, n: nat)
    requires n < |entries| && r.Keys == m.Keys && r'.Keys == r.Keys
    requires forall k :: 0 <= k < n && entries[k].target in m && Untouched(entries, k, n, entries[k].target) ==>
               r[entries[k].target].revealed == entries[k].intersecting
    requires forall id :: id in r && id != entries[n].target ==> r'[id] == r[id]
    requires entries[n].target in r ==> r'[entries[n].target].revealed == entries[n].intersecting
    ensures forall k :: 0 <= k < n + 1 && entries[k].target in m && Untouched(entries, k, n + 1, entries[k].target) ==>
              r'[entries[k].target].revealed == entries[k].intersecting
  {
    forall k | 0 <= k < n + 1 && entries[k].target in m && Untouched(entries, k, n + 1, entries[k].target)
      ensures r'[entries[k].target].revealed == entries[k].intersecting
    {
      if k < n {
        assert Untouched(entries, k, n, entries[k].target);
      }
    }
  }

  /** `handleIntersection` over the manager's map from elements to scramblers:
      entries for unknown elements are skipped, and every known element ends in
      the state its last entry asks for. */
  method HandleIntersection(m: map<nat, Scrambler>, entries: seq<Observation>) returns (r: map<nat, Scrambler>)
    requires forall k :: 0 <= k < |entries| ==> ValidDraws(entries[k].draws)
    ensures r.Keys == m.Keys
    ensures forall id :: id in m && Untouched(entries, -1, |entries|, id) ==> r[id] == m[id]
    ensures forall k :: 0 <= k < |entries| && entries[k].target in m && Untouched(entries, k, |entries|, entries[k].target) ==>
              r[entries[k].target].revealed == entries[k].intersecting
    ensures forall id :: id in m ==> r[id].html == m[id].html && r[id].text == m[id].text
    ensures forall id :: id in m && Coherent(m[id]) ==> Coherent(r[id])
  {
    r := m;
    var n := 0;
    while n < |entries|
      invariant 0 <= n <= |entries|
      invariant Handled(m, r, entries, n)
      invariant forall id :: id in m && Coherent(m[id]) ==> Coherent(r[id])
    {
      var r' := Observe(r, entries[n]);
      HandledStep(m, r, r', entries, n);
      r := r';
      n := n + 1;
    }
  }
}
